=== FILE: README.md ===
# Books and authors: search indexing and catalog endpoints, in Dafny

This project models the core of a small catalog service. The service keeps books
and authors in a relational store and mirrors them into two search indices. The
model covers four parts:

- **Projections.** These turn a book or an author, with its join records loaded,
  into a flat search document (`IndexingService.ProjectBook`, `ProjectAuthor`).
- **Reindexing.** This is a sequential procedure over an abstract search
  backend:
  - fail when there are no books;
  - create each index the existence check reports absent;
  - re-check both indices;
  - bulk-write the authors, then the books.
  
  It is the function `IndexingService.Reindex`. The function returns the
  result, the backend state afterwards, and the requests sent, in order.
- **Book endpoints.** These are the two listings, single and bulk creation, and
  the wildcard search. The search covers the query as a data value, its matching
  semantics and the mapping of hits to DTOs (`BookController`).
- **Author endpoints.** These are the two listings and single and bulk creation
  (`AuthorController`).

Modules: `Outcomes` (Option/Result), `Domain` (entities, join records), `SearchModels`
(search documents), `Contracts` (DTOs), `Text` (lower-casing, wildcard matching),
`IndexStore` (the backend), `IndexingService`, `BookController`, `AuthorController`.

Modelling decisions:

- **The backend.** The backend is a map from index name to index. An index is a
  map from document id to document, and a missing key means the index does not
  exist. A bulk write is modelled as an upsert keyed by the document's `Id`,
  applied in order. This is an assumption about the client and the backend.
  A bulk request with no documents has an empty body, and the backend
  refuses it ("request body is required"). Reindex sends the author bulk
  even when there are no authors, so with an empty author table the run
  fails there and no book is indexed.
  Every ordering, failure and idempotence property below rests on it.
- **Backend faults.** Faults are an explicit parameter (`IndexStore.Faults`).
  The model knows these faults:
  - an existence check can fail, and it then reads as "absent", since the
    client's `Exists` is true only for a successful call;
  - index creation can be refused with a diagnostic;
  - a bulk request can be refused as a whole;
  - a bulk request can be refused item by item, in which case the accepted items
    are still written.
- **Guids.** A Guid is a `nat`, and `Guid.Empty` is 0. The ids the server
  generates are a parameter.
- **Books and join records.** A `Book` carries its join records (`bookAuthors`),
  as every user of the entity does. `Domain/Entities/Book.cs:10` declares an
  `Authors` collection instead.
- **Join record navigations.** These are `Option`s: a record built for a new
  book holds only the two keys.
- **Matching.** A search matches through the backend's indexed terms of each
  field. These are a parameter, because the analysis is not modelled. A
  `wildcard` clause matches a term by `*`/`?` globbing, where `\` makes the
  next character literal (`Text.GlobMatch`). The backend returns one page of
  at most 10 hits, its default size, since the request sets none.

Modelling choices that follow the code exactly:

- Creating an index the existence check missed fails with the backend's
  "already exists" diagnostic. The code does not treat it as success.
- The book listing reads the database directly and always answers with the
  whole list.
- The search body does not check its term. Called with the empty term, it
  builds the pattern `**`, which matches every document with a title term.
- A failed search ends in an error carrying the backend's message.

## Model

| member | source | states |
|---|---|---|
| IndexingService.ProjectBook | Infrastructure/Opensearch/IndexingService.cs:78-91 | the book document copies id, title and description, keeps the tags exactly (same length, order, duplicates) and has one `{id, name}` reference per join record, taken from that record's author, in order |
| IndexingService.ProjectAuthor | Infrastructure/Opensearch/IndexingService.cs:94-106 | the author document copies id and name, keeps the tags exactly and has one `{id, title}` reference per join record, taken from that record's book, in order |
| IndexingService.NormalizeBooks | Infrastructure/Opensearch/IndexingService.cs:78-80 | exactly one document per book, in input order, each the projection of that book |
| IndexingService.NormalizeAuthors | Infrastructure/Opensearch/IndexingService.cs:94-96 | exactly one document per author, in input order, each the projection of that author |
| IndexingService.BookRefsMatchJoinTable | Infrastructure/Opensearch/IndexingService.cs:83-87 | when the book's join records are exactly the join-table rows for its id, the set of author ids in its document equals the set of authors the join table links to it |
| IndexingService.AuthorRefsMatchJoinTable | Infrastructure/Opensearch/IndexingService.cs:99-103 | the set of book ids in an author's document equals the set of books the join table links to the author |
| IndexingService.EnsureIndex | Infrastructure/Opensearch/IndexingService.cs:35-43 | a creation request is sent exactly when the existence check reports the index absent; a refused creation is an `IndexCreationError` for that index and changes nothing; otherwise the index exists with its previous contents |
| IndexingService.CreateIndices | Infrastructure/Opensearch/IndexingService.cs:34-54 | the creation phase sends no bulk write, creates only indices reported absent, writes no document, reports a creation failure naming an index it tried to create, and succeeds when no check fails and no creation is refused |
| IndexingService.WriteBoth | Infrastructure/Opensearch/IndexingService.cs:60-73 | the author bulk is sent first; the book bulk follows only if it succeeded; on success both batches are upserted; an empty author batch fails the run at the author write with nothing written; an empty book batch fails it after the author write; an author failure leaves the book index untouched; a book failure keeps the author write; whatever happens, a later full write of either batch lands where a clean one would |
| IndexingService.RefreshIndices | Infrastructure/Opensearch/IndexingService.cs:34-74 | once the catalog is non-empty, any failure is a creation error or a bulk error |
| IndexingService.Reindex | Infrastructure/Opensearch/IndexingService.cs:23-76 | the run fails with "no data" exactly when there are no books |
| IndexingService.EmptyCatalogFailsFirst | Infrastructure/Opensearch/IndexingService.cs:25-29 | with no books the run fails before any request and the backend is unchanged |
| IndexingService.CreatesOnlyWhenAbsent | Infrastructure/Opensearch/IndexingService.cs:35-54 | every creation request in the trace directly follows an existence check of the same index that reported it absent |
| IndexingService.CreationFailureStopsRun | Infrastructure/Opensearch/IndexingService.cs:38-54 | a creation error names an index whose creation was requested, and the run has sent no bulk write and written no document |
| IndexingService.RecheckFailureSkipsWrites | Infrastructure/Opensearch/IndexingService.cs:56-74 | if the re-check reports either index missing, the run ends successfully with no bulk write and no document written; otherwise the author bulk is sent |
| IndexingService.AuthorsWrittenBeforeBooks | Infrastructure/Opensearch/IndexingService.cs:60-68 | the bulk requests of any run are none, the author batch alone, or the author batch followed by the book batch |
| IndexingService.AuthorFailureStopsBooks | Infrastructure/Opensearch/IndexingService.cs:60-66 | after an author-bulk failure the only bulk request sent is the author one, and the book index keeps its contents |
| IndexingService.BookFailureKeepsAuthors | Infrastructure/Opensearch/IndexingService.cs:67-73 | after a book-bulk failure the author index holds the full author write: there is no rollback |
| IndexingService.RefreshIsAbsorbed | Infrastructure/Opensearch/IndexingService.cs:60-73 | whatever faults a run met, writing both full batches over what it left gives what writing them over the original contents gives |
| IndexingService.FaultFreeRefreshCompletes | Infrastructure/Opensearch/IndexingService.cs:34-74 | with no faults and both batches non-empty, the run succeeds and both indices hold their previous contents overwritten by the full batches |
| IndexingService.FaultFreeRefreshWithoutAuthors | Infrastructure/Opensearch/IndexingService.cs:60-65 | with no faults and no author documents, the only bulk request is the empty author one, the run fails there with the backend's empty-body reason, and the indices are only created |
| IndexingService.FaultFreeRefreshWithoutBooks | Infrastructure/Opensearch/IndexingService.cs:60-72 | with no faults, author documents and no book documents, the authors are written and the run fails at the empty book write |
| IndexingService.NothingWrittenWithoutAuthors | Infrastructure/Opensearch/IndexingService.cs:34-65 | whatever faults it meets, a run with no author documents writes no document and only creates empty indices |
| IndexingService.ReindexWritesEveryBook | Infrastructure/Opensearch/IndexingService.cs:67-68 | after a fault-free run with at least one author and distinct book ids, the run succeeds and the book index holds each book's document under that book's id |
| IndexingService.NoAuthorsNoBooksIndexed | Infrastructure/Opensearch/IndexingService.cs:60-65 | with books but no authors, a fault-free reindex fails at the author write, the book index keeps its contents, and the answer is 500 with "Failed to index books: " and the empty-body reason |
| IndexingService.RefreshRetryConverges | Infrastructure/Opensearch/IndexingService.cs:34-74 | a fault-free run after any run ends in the same backend state as a fault-free run from the start, including runs whose batches are empty |
| IndexingService.RetryConverges | Infrastructure/Opensearch/IndexingService.cs:23-76 | retrying a reindex in full after any failed or partial run leaves the same index contents as one complete run; nothing has to be rolled back |
| IndexingService.ReindexIdempotent | Infrastructure/Opensearch/IndexingService.cs:60-68 | running reindex twice over unchanged data leaves the same index contents as running it once |
| IndexingService.AsWrittenBulkMessagesCollide | Infrastructure/Opensearch/IndexingService.cs:63-73 | as written, an author-bulk failure and a book-bulk failure with the same reason produce the same message |
| IndexingService.ErrorMessageAsWritten | Infrastructure/Opensearch/IndexingService.cs:29-72 | the empty catalog gives "no data to reindex"; a creation failure's message ends with the backend's diagnostic; every bulk failure, whichever index, reads "Failed to index books: " followed by the reason |
| IndexingService.ErrorMessage | Infrastructure/Opensearch/IndexingService.cs:63-72 | the corrected messages equal the written ones except for an author-bulk failure, which differs from the written text and still ends with the reason |
| IndexingService.ErrorMessageIdentifiesError | Infrastructure/Opensearch/IndexingService.cs:29-72 | with the author wording corrected, distinct failures always produce distinct messages, so the message identifies the failed step, the index and the backend's text |
| IndexingService.ReindexResponse | webapi/Controllers/IndexingController.cs:20-28 | the answer is 200 exactly when the run succeeded, otherwise 500, and its text after the fixed prefix is the failure's message as the code writes it |
| IndexingService.ReindexResponseCorrected | webapi/Controllers/IndexingController.cs:20-28 | the same answer with the corrected messages: 200 exactly on success, otherwise 500 with the corrected message after the prefix |
| IndexingService.CorrectedResponseIdentifiesError | webapi/Controllers/IndexingController.cs:26-27 | with the corrected messages, two failed runs that get the same answer failed with the same error |
| IndexStore.Upsert | Domain/Entities/OpensearchModels/BookSearchModel.cs:5 | after a bulk write the index holds its old ids plus the batch's ids, and every id the batch does not touch keeps its document |
| IndexStore.DistinctIdsAllWritten | Infrastructure/Opensearch/IndexingService.cs:67-68 | when the batch's ids are distinct, every document of the batch is what the index holds under its id afterwards |
| IndexStore.UpsertAbsorbs | Infrastructure/Opensearch/IndexingService.cs:60-68 | a full write after a partial write of the same ids gives the same index as the full write alone |
| IndexStore.UpsertIdempotent | Infrastructure/Opensearch/IndexingService.cs:60-68 | writing the same batch twice gives the same index as writing it once |
| IndexStore.Exists | Infrastructure/Opensearch/IndexingService.cs:35-36 | the check reports an index present only when it exists, and reports exactly that when the check does not fail |
| IndexStore.Create | Infrastructure/Opensearch/IndexingService.cs:38-42 | creation succeeds exactly for an index that does not exist and whose creation the backend does not refuse, and then adds it empty |
| IndexStore.Bulk | Infrastructure/Opensearch/IndexingService.cs:60-73 | a request with no documents is refused with the empty-body reason and changes nothing; otherwise the response is valid exactly when no fault hits the batch's ids; a valid write upserts the whole batch; no other index changes; a later full write absorbs any partial write |
| IndexStore.Accepted | Infrastructure/Opensearch/IndexingService.cs:60-63 | the items a per-item rejection lets through are exactly the batch's ids minus the rejected ones |
| Text.Lower | webapi/Controllers/BookController.cs:184 | lower-casing keeps the length, moves A-Z and А-Я up by 0x20 and Ѐ-Џ up by 0x50, leaves no upper-case letter and does not change any other character |
| Text.SubstringPattern | webapi/Controllers/BookController.cs:184 | for text without wildcard characters, the pattern `*text*` matches a term exactly when the text occurs inside it |
| Text.DoubleStarMatchesAll | webapi/Controllers/BookController.cs:184 | the pattern an empty term yields, `**`, matches every term |
| BookController.GetBooks | webapi/Controllers/BookController.cs:34-50 | one DTO per book, in order, with id, title, description and tags copied and one `{Id, Name}` author entry per join record, in order |
| BookController.GetBooksWithoutAuthors | webapi/Controllers/BookController.cs:62-69 | one DTO per book, in order, with id, title, description and tags copied and no authors |
| BookController.ListingsDifferOnlyInAuthors | webapi/Controllers/BookController.cs:37-69 | the two listings agree on every book except the author list |
| BookController.ListingMatchesSearchDocument | webapi/Controllers/BookController.cs:37-50 | a listed book and its search document agree on id, title, description, tags and each author's id and name, in order |
| BookController.ListedAuthorsMatchJoinTable | webapi/Controllers/BookController.cs:43-49 | the set of author ids a listed book shows is the set of authors the join table links to it |
| BookController.NewJoins | webapi/Controllers/BookController.cs:100-104 | one join record per requested author id, in order, each keyed by the new book's id and that author id |
| BookController.NewBook | webapi/Controllers/BookController.cs:84-105 | the new book has the fresh id and the request's title and description; its tags are the request's, or empty when null or empty; it has one join record per requested author, in order, or none when the list is null or empty |
| BookController.CreateBook | webapi/Controllers/BookController.cs:84-118 | a create request builds the book that is handed to the save, and answers with the fresh id and no authors; whether the save succeeds is not modelled |
| BookController.CreatedBookIsListed | webapi/Controllers/BookController.cs:110-116 | the answer to a create request is exactly the entry the author-less listing shows for the stored book, and the other entries do not change |
| BookController.IncludeAuthors | webapi/Controllers/BookController.cs:34-36 | loading a stored book's authors keeps its fields and join keys and fills each join record with the author its key names |
| BookController.CreatedBookListsItsAuthors | webapi/Controllers/BookController.cs:98-105 | once stored and loaded back, a created book with distinct author ids lists one entry per requested id, the set of listed ids is the set of requested ids, and each entry carries its author's name |
| BookController.CreateBooksBulk | webapi/Controllers/BookController.cs:125-166 | a null or empty list is rejected with "Empty book list." and nothing is stored; otherwise exactly one book per request, in order, each what a single create stores, and one summary per book |
| BookController.BulkOfOneIsSingle | webapi/Controllers/BookController.cs:133-164 | a bulk request for one book stores and answers exactly what a single create does |
| BookController.SearchPattern | webapi/Controllers/BookController.cs:184 | for a term without wildcard characters, the pattern matches a term exactly when the lower-cased search term occurs inside it |
| BookController.BackslashTermIsNotSubstring | webapi/Controllers/BookController.cs:184 | a term holding a backslash is not searched as a substring: the term `\b` matches the title "b", which does not contain it |
| BookController.Clauses | webapi/Controllers/BookController.cs:179-197 | exactly three clauses with the same pattern: title with boost 3, tags with boost 2, description with no boost; none on the author field |
| BookController.SearchRequestFor | webapi/Controllers/BookController.cs:174-178 | the corrected request targets `books_items`, returns the id in `_source`, and sends the same query as the code |
| BookController.SearchMatchesSubstring | webapi/Controllers/BookController.cs:179-197 | for a term without wildcard characters, a document is a hit exactly when the lower-cased term occurs inside one of its title, tag or description terms |
| BookController.AuthorsNeverSearched | webapi/Controllers/BookController.cs:179-197 | changing a document's author terms never changes whether it is a hit |
| BookController.EmptyTermMatchesEveryTitle | webapi/Controllers/BookController.cs:184 | called with the empty term, the search matches every document with a title term |
| BookController.FilterSource | webapi/Controllers/BookController.cs:176-178 | a hit carries the stored id only when `_source` includes the id field, and otherwise the empty Guid; included fields are copied |
| BookController.HitDto | webapi/Controllers/BookController.cs:207-213 | a hit's DTO copies id, title and description, reads null tags as an empty list, copies other tags and has no authors |
| BookController.MapHits | webapi/Controllers/BookController.cs:202-213 | an invalid response is an error carrying the backend's message and no results; a valid one gives one DTO per hit, in order |
| BookController.SearchBooksAsWritten | webapi/Controllers/BookController.cs:174-213 | the search as written queries `books_items` with the three clauses, leaves the id and the authors out of `_source`, fails exactly on an invalid answer with the backend's message, and otherwise gives one author-less DTO per hit, in order, carrying the hit's id |
| BookController.SearchBooks | webapi/Controllers/BookController.cs:174-213 | the corrected search sends the same three clauses to `books_items` with the id in `_source` and the authors still out; it fails exactly on an invalid answer with the backend's message, and otherwise gives one author-less DTO per hit, in order, carrying the hit's id |
| BookController.MapHitsFindsMatches | webapi/Controllers/BookController.cs:202-213 | over a correct first page, every result is the DTO of a matching stored document as `_source` filters it, there are at most 10 results, and when at most 10 documents match, every one of them is among the results |
| BookController.AsWrittenSearchLosesIds | webapi/Controllers/BookController.cs:176-177 | with the request as written, every search result carries the empty Guid as its id |
| BookController.AsWrittenHitDiffersFromBook | webapi/Controllers/BookController.cs:176-177 | for any indexed book with a non-empty id, its hit under the request as written does not carry its id |
| BookController.SearchFindsExactlyMatches | webapi/Controllers/BookController.cs:174-213 | with the id returned, every result is the DTO, id included, of a matching stored document; there are at most 10; when at most 10 documents match, all of them are among the results |
| BookController.HitOfIndexedBookIsItsSummary | webapi/Controllers/BookController.cs:207-213 | with the id returned, the hit of an indexed book is that book's entry in the author-less listing |
| AuthorController.GetAuthors | webapi/Controllers/AuthorController.cs:27-34 | one DTO per author, in order, with exactly its id, name and tags |
| AuthorController.GetAuthorsWithBooks | webapi/Controllers/AuthorController.cs:45-54 | one DTO per author |
| AuthorController.WithBooksIsPlainListing | webapi/Controllers/AuthorController.cs:45-54 | the listing with books loaded equals the plain listing, and equals the listing of the same authors with their join records removed |
| AuthorController.NewAuthor | webapi/Controllers/AuthorController.cs:68-78 | the new author has the fresh id, the request's name and no join records; its tags are the request's, or empty when null or empty |
| AuthorController.CreateAuthor | webapi/Controllers/AuthorController.cs:68-90 | a create request builds the author that is handed to the save, and its answer has the created author's id, name and tags; whether the save succeeds is not modelled |
| AuthorController.CreatedAuthorIsListed | webapi/Controllers/AuthorController.cs:83-88 | the answer to a create request is exactly the entry the listing shows for the stored author, and the other entries do not change |
| AuthorController.CreateAuthorsBulk | webapi/Controllers/AuthorController.cs:97-127 | a null or empty list is rejected with "Empty author list." and nothing is stored; otherwise exactly one author per request, in order, each what a single create stores, and one DTO per author with the same id, name and tags |
| AuthorController.BulkOfOneIsSingle | webapi/Controllers/AuthorController.cs:103-125 | a bulk request for one author stores and answers exactly what a single create does |

## Left out

- Relational persistence is framework behaviour and is not modelled: saving, change tracking, migrations, foreign-key enforcement and `ModelState` validation. The store is input sequences, and creation returns the entities it would save.
- Loading: the listings and the projections take the join records and navigations as already loaded. Reindex reads books and authors without `Include` (`Infrastructure/Opensearch/IndexingService.cs:25-26`). Nothing is claimed about what the loader fills in there. For the book listing, `IncludeAuthors` stands for the loader.
- Async, cancellation and concurrency (including racing reindex runs) are not modelled.
- Guid generation is a parameter: the fresh ids are supplied.
- Search backend internals are not modelled: relevance scoring, ranking order, `AutoMap` mappings, field-name casing and term analysis. A correct answer is one page of at most 10 hits in some order. Which documents fill the page when more than 10 match is not modelled.
- The index-name constants are defined in `Domain.Constants.Indicies`, which is not part of this model. The book index is a symbolic name in the store, and the search request's literal `books_items` is kept only as data.
- IndexStore.Bulk: the backend's exact answer to a bulk request with no documents is reduced to a refusal with the reason "request body is required"; the status code and the rest of the error body are not modelled.
- Redis, the user endpoints, program wiring, the frontend and the unused `SearchItem` entity are outside the modelled core.
- BookController.MapHitsFindsMatches: promises that every match is among the results only when at most 10 documents match, because the request sets no `size` and the backend returns 10 hits by default.
- BookController.SearchFindsExactlyMatches: the same 10-hit cap applies; beyond 10 matches only soundness and the page size are promised.
- BookController.IncludeAuthors: keeps the join records in the order they were created. The loader promises no order, so `CreatedBookListsItsAuthors` claims only the count, the set of ids and the names.
- BookController.CreatedBookListsItsAuthors: assumes distinct author ids and ids present in the author table. Otherwise the save fails on the join table's composite key or foreign key, which is not modelled.
- BookController.CreateBook: the save can fail, and the request then ends in a server error: repeated author ids break the composite key, and unknown ones break the foreign key. The model returns the entity it would save and does not model that failure.
- AuthorController.CreateAuthor: the save is not modelled either; the model returns the entity it would save.
- BookController.CreateBooksBulk: a `null` element in the list makes `dto.Title` (`webapi/Controllers/BookController.cs:138`) throw, and the request ends in a server error. The model's elements are never null.
- AuthorController.CreateAuthorsBulk: a `null` element makes `dto.Name` (`webapi/Controllers/AuthorController.cs:110`) throw in the same way. The model's elements are never null.
- Search terms are sent unescaped: a term holding `*`, `?` or `\` acts as pattern syntax. The substring lemmas therefore require terms without these characters, and `BackslashTermIsNotSubstring` shows one way they differ.
- BookController.EmptyTermMatchesEveryTitle: holds for the action's body called with `""`. Over HTTP, model binding turns an empty or whitespace-only `term` (`webapi/Controllers/BookController.cs:170`) into null before the body runs. The request then ends in a 400, or in a server error at `term.ToLower()`. That binding is not modelled.
- Text.Lower: lower-cases only ASCII letters and the basic Cyrillic block; culture-specific mappings of other scripts are not modelled.
- BookController.FilterSource: a title left out of `_source` is modelled as the empty string rather than `null`; the title is always included, so no result depends on it.
- BookController.HitDto: the hit keeps only the fields the DTO reads; the nested author list of a hit is dropped, as the mapping does.
- IndexingService.Reindex: its own contract states only the empty-catalog case. Every other property of the run is a lemma about `RefreshIndices`, the part after the empty check.
- AuthorController.GetAuthorsWithBooks: its own contract states only the count. Its equality with the plain listing is the lemma `WithBooksIsPlainListing`.

## Findings

| source | as written | input that shows it | evidently intended | confidence | as-written member | corrected member |
|---|---|---|---|---|---|---|
| webapi/Controllers/BookController.cs:176-177 | `_source` includes only Title, Tags and Description, so every hit deserialises with `Id = Guid.Empty` | any search that finds a stored book whose id is not empty: its DTO has the empty id, and every result of the search has the same id; the search page uses `item.id` as the list key (frontend/src/SearchApp.tsx:88) | the hit DTO carries the book's id | medium, not executed | BookController.AsWrittenSearchLosesIds | BookController.SearchFindsExactlyMatches |
| Infrastructure/Opensearch/IndexingService.cs:65 | an author-bulk failure is reported as "Failed to index books: " + reason, the same text as a book-bulk failure | an author write and a book write both rejected with reason "x" give the same message; a reindex with books and no authors fails at the author write and reports "Failed to index books: request body is required" (IndexingService.NoAuthorsNoBooksIndexed) | the author-bulk failure says "Failed to index authors" | high, not executed | IndexingService.AsWrittenBulkMessagesCollide | IndexingService.ErrorMessageIdentifiesError |

=== FILE: author_controller.dfy ===
/** The author endpoints: the two listings and single and bulk creation. */
module AuthorController {
  import opened Outcomes
  import opened Domain
  import opened Contracts

  /** The listing entry of one author: id, name and tags; never its books. */
  function Entry(a: Author): AuthorDTO {
    AuthorDTO(a.id, a.name, a.tags)
  }

  /** `GET /authors`: every author with its tags. */
  function GetAuthors(authors: seq<Author>): (r: seq<AuthorDTO>)
    ensures |r| == |authors|
    ensures forall i :: 0 <= i < |authors| ==>
              r[i].id == authors[i].id && r[i].name == authors[i].name && r[i].tags == authors[i].tags
  {
    seq(|authors|, i requires 0 <= i < |authors| => Entry(authors[i]))
  }

  /** `GET /authors/with-books`: the authors with their join records and books
      loaded; the projection then drops them again. */
  function GetAuthorsWithBooks(authors: seq<Author>): (r: seq<AuthorDTO>)
    requires AllBooksLoaded(authors)
    ensures |r| == |authors|
  {
    seq(|authors|, i requires 0 <= i < |authors| => Entry(authors[i]))
  }

  /** Loading the books changes nothing: the response is the plain listing of
      the same authors, and it does not depend on their join records. */
  lemma WithBooksIsPlainListing(authors: seq<Author>, stripped: seq<Author>)
    requires AllBooksLoaded(authors)
    requires |stripped| == |authors|
    requires forall i :: 0 <= i < |authors| ==> stripped[i] == authors[i].(bookAuthors := [])
    ensures GetAuthorsWithBooks(authors) == GetAuthors(authors)
    ensures GetAuthorsWithBooks(authors) == GetAuthors(stripped)
  {
  }

  /** The entity a create request stores: the fresh id, the name, the tags (or
      none) and no join records. */
  function NewAuthor(dto: CreateAuthorDTO, freshId: Guid): (a: Author)
    ensures a.id == freshId && a.name == dto.name && a.bookAuthors == []
    ensures a.tags == dto.tags.GetOr([])
  {
    var tags := if dto.tags.Some? && |dto.tags.value| > 0 then dto.tags.value else [];
    Author(freshId, dto.name, [], tags)
  }

  /** `POST /authors`: store the new author and answer with its entry. */
  function CreateAuthor(dto: CreateAuthorDTO, freshId: Guid): (r: Created<Author, AuthorDTO>)
    ensures r.Created?
    ensures r.saved == NewAuthor(dto, freshId)
    ensures r.body == AuthorDTO(freshId, dto.name, dto.tags.GetOr([]))
  {
    var author := NewAuthor(dto, freshId);
    Created(author, Entry(author))
  }

  /** The answer to a create request is what the listing shows for the new
      author once it is stored, and the rest of the listing is unchanged. */
  lemma CreatedAuthorIsListed(authors: seq<Author>, dto: CreateAuthorDTO, freshId: Guid)
    ensures var r := CreateAuthor(dto, freshId);
            var listed := GetAuthors(authors + [r.saved]);
            |listed| == |authors| + 1 && listed[|authors|] == r.body && listed[..|authors|] == GetAuthors(authors)
  {
    var r := CreateAuthor(dto, freshId);
    var listed := GetAuthors(authors + [r.saved]);
    assert listed[..|authors|] == GetAuthors(authors);
  }

  /** `POST /authors/bulk`: reject a missing or empty list, otherwise build one
      author per request, in order, with the server's ids, and answer with
      their entries. */
  method CreateAuthorsBulk(dtos: Option<seq<CreateAuthorDTO>>, freshIds: seq<Guid>) returns (r: Created<seq<Author>, seq<AuthorDTO>>)
    requires |freshIds| == |dtos.GetOr([])|
    ensures r.BadRequest? <==> dtos.None? || |dtos.value| == 0
    ensures r.BadRequest? ==> r.message == "Empty author list."
    ensures r.Created? ==>
              && |r.saved| == |dtos.value| && |r.body| == |dtos.value|
              && forall i :: 0 <= i < |dtos.value| ==>
                   r.saved[i] == CreateAuthor(dtos.value[i], freshIds[i]).saved
                   && r.body[i] == CreateAuthor(dtos.value[i], freshIds[i]).body
  {
    if dtos.None? || |dtos.value| == 0 {
      return BadRequest("Empty author list.");
    }
    var requests := dtos.value;
    var authors: seq<Author> := [];
    var i := 0;
    while i < |requests|
      invariant 0 <= i <= |requests|
      invariant |authors| == i
      invariant forall k :: 0 <= k < i ==> authors[k] == NewAuthor(requests[k], freshIds[k])
    {
      var d := requests[i];
      var tags := if d.tags.Some? then d.tags.value else [];
      authors := authors + [Author(freshIds[i], d.name, [], tags)];
      i := i + 1;
    }
    r := Created(authors, GetAuthors(authors));
  }

  /** A bulk request for one author stores and answers what a single create does. */
  method BulkOfOneIsSingle(dto: CreateAuthorDTO, freshId: Guid) returns (bulk: Created<seq<Author>, seq<AuthorDTO>>)
    ensures bulk.Created?
    ensures bulk.saved == [CreateAuthor(dto, freshId).saved] && bulk.body == [CreateAuthor(dto, freshId).body]
  {
    bulk := CreateAuthorsBulk(Some([dto]), [freshId]);
  }
}

=== FILE: book_controller.dfy ===
/** The book endpoints: the two listings, single and bulk creation, and the
    wildcard search over the book index. */
module BookController {
  import opened Outcomes
  import opened Domain
  import opened SearchModels
  import opened Contracts
  import opened Text
  import IndexingService

  // ---------------------------------------------------------------------------
  // Listings
  // ---------------------------------------------------------------------------

  /** The listing entry of one author reference: id and name, tags left empty. */
  function AuthorEntry(ba: BookAuthor): AuthorDTO
    requires ba.author.Some?
  {
    AuthorDTO(ba.author.value.id, ba.author.value.name, [])
  }

  /** `GET /books`: every book with one author entry per join record. */
  function GetBooks(books: seq<Book>): (r: seq<BookDTO>)
    requires AllAuthorsLoaded(books)
    ensures |r| == |books|
    ensures forall i :: 0 <= i < |books| ==>
              && r[i].id == books[i].id && r[i].title == books[i].title
              && r[i].description == books[i].description && r[i].tags == books[i].tags
              && |r[i].authors| == |books[i].bookAuthors|
              && forall j :: 0 <= j < |books[i].bookAuthors| ==>
                   r[i].authors[j] == AuthorEntry(books[i].bookAuthors[j])
  {
    seq(|books|, i requires 0 <= i < |books| && AllAuthorsLoaded(books) =>
      var b := books[i];
      BookDTO(b.id, b.title, b.description,
              seq(|b.bookAuthors|, j requires 0 <= j < |b.bookAuthors| && AuthorsLoaded(b) => AuthorEntry(b.bookAuthors[j])),
              b.tags))
  }

  /** The listing entry of a book without its authors. */
  function Summary(b: Book): BookDTO {
    BookDTO(b.id, b.title, b.description, [], b.tags)
  }

  /** `GET /books/without-authors`: every book with an empty author list. */
  function GetBooksWithoutAuthors(books: seq<Book>): (r: seq<BookDTO>)
    ensures |r| == |books|
    ensures forall i :: 0 <= i < |books| ==> r[i] == Summary(books[i])
  {
    seq(|books|, i requires 0 <= i < |books| => Summary(books[i]))
  }

  /** The two listings agree on every book and differ only in the author list. */
  lemma ListingsDifferOnlyInAuthors(books: seq<Book>)
    requires AllAuthorsLoaded(books)
    ensures |GetBooks(books)| == |GetBooksWithoutAuthors(books)|
    ensures forall i :: 0 <= i < |books| ==>
              GetBooksWithoutAuthors(books)[i] == GetBooks(books)[i].(authors := [])
  {
  }

  /** A listed book shows the same fields and the same author references, in
      the same order, as the document reindexing writes for it. */
  lemma ListingMatchesSearchDocument(books: seq<Book>, i: int)
    requires AllAuthorsLoaded(books) && 0 <= i < |books|
    ensures var dto := GetBooks(books)[i];
            var doc := IndexingService.ProjectBook(books[i]);
            && dto.id == doc.id && dto.title == doc.title
            && dto.description == doc.description && dto.tags == doc.tags
            && |dto.authors| == |doc.authors|
            && forall j :: 0 <= j < |doc.authors| ==>
                 dto.authors[j].id == doc.authors[j].id && dto.authors[j].name == doc.authors[j].name
  {
    assert AuthorsLoaded(books[i]);
  }

  /** The author ids a listed book shows are exactly the authors the join table
      links to it. */
  lemma ListedAuthorsMatchJoinTable(books: seq<Book>, i: int, joins: set<JoinKey>)
    requires AllAuthorsLoaded(books) && 0 <= i < |books|
    requires BookLoadedFrom(books[i], joins)
    ensures var dto := GetBooks(books)[i];
            (set j | 0 <= j < |dto.authors| :: dto.authors[j].id)
            == (set k | k in joins && k.bookId == books[i].id :: k.authorId)
  {
    var dto := GetBooks(books)[i];
    var doc := IndexingService.ProjectBook(books[i]);
    ListingMatchesSearchDocument(books, i);
    IndexingService.BookRefsMatchJoinTable(books[i], joins);
    assert (set j | 0 <= j < |dto.authors| :: dto.authors[j].id)
           == (set j | 0 <= j < |doc.authors| :: doc.authors[j].id);
  }

  // ---------------------------------------------------------------------------
  // Creation
  // ---------------------------------------------------------------------------

  /** The join records of a new book: one per requested author, keys only. */
  function NewJoins(bookId: Guid, authorIds: seq<Guid>): (r: seq<BookAuthor>)
    ensures |r| == |authorIds|
    ensures forall j :: 0 <= j < |authorIds| ==> r[j] == BookAuthor(bookId, None, authorIds[j], None)
  {
    seq(|authorIds|, j requires 0 <= j < |authorIds| => BookAuthor(bookId, None, authorIds[j], None))
  }

  /** The entity a create request stores: the fresh id, the request's fields,
      its tags (or none) and one join record per requested author (or none). */
  function NewBook(dto: CreateBookDTO, freshId: Guid): (b: Book)
    ensures b.id == freshId && b.title == dto.title && b.description == Some(dto.description)
    ensures b.tags == dto.tags.GetOr([])
    ensures |b.bookAuthors| == |dto.authorIds.GetOr([])|
    ensures forall j :: 0 <= j < |b.bookAuthors| ==>
              b.bookAuthors[j].bookId == freshId && b.bookAuthors[j].authorId == dto.authorIds.value[j]
  {
    var tags := if dto.tags.Some? && |dto.tags.value| > 0 then dto.tags.value else [];
    var joins := if dto.authorIds.Some? && |dto.authorIds.value| > 0 then NewJoins(freshId, dto.authorIds.value) else [];
    Book(freshId, dto.title, Some(dto.description), tags, joins)
  }

  /** `POST /books`: store the new book and answer with its summary. The id is
      the one the server generates. */
  function CreateBook(dto: CreateBookDTO, freshId: Guid): (r: Created<Book, BookDTO>)
    ensures r.Created?
    ensures r.saved == NewBook(dto, freshId)
    ensures r.body.id == freshId && r.body.authors == []
  {
    var book := NewBook(dto, freshId);
    Created(book, Summary(book))
  }

  /** The answer to a create request is what the author-less listing shows for
      the new book once it is stored. */
  lemma CreatedBookIsListed(books: seq<Book>, dto: CreateBookDTO, freshId: Guid)
    ensures var r := CreateBook(dto, freshId);
            var listed := GetBooksWithoutAuthors(books + [r.saved]);
            |listed| == |books| + 1 && listed[|books|] == r.body && listed[..|books|] == GetBooksWithoutAuthors(books)
  {
  }

  /** A stored book with its join records' authors loaded from the author table
      (the listing's `Include`/`ThenInclude`). */
  function IncludeAuthors(b: Book, table: map<Guid, Author>): (r: Book)
    requires forall j :: 0 <= j < |b.bookAuthors| ==> b.bookAuthors[j].authorId in table
    ensures AuthorsLoaded(r)
    ensures r.id == b.id && r.title == b.title && r.description == b.description && r.tags == b.tags
    ensures |r.bookAuthors| == |b.bookAuthors|
    ensures forall j :: 0 <= j < |b.bookAuthors| ==>
              KeyOf(r.bookAuthors[j]) == KeyOf(b.bookAuthors[j])
              && r.bookAuthors[j].author == Some(table[b.bookAuthors[j].authorId])
  {
    b.(bookAuthors := seq(|b.bookAuthors|, j requires 0 <= j < |b.bookAuthors| && b.bookAuthors[j].authorId in table =>
      b.bookAuthors[j].(author := Some(table[b.bookAuthors[j].authorId]))))
  }

  /** The requested author ids are pairwise distinct: the join table's key is
      the (book, author) pair, so a repeated id makes the save fail. */
  predicate DistinctIds(ids: seq<Guid>) {
    forall a, b :: 0 <= a < b < |ids| ==> ids[a] != ids[b]
  }

  /** Once stored and loaded back, a created book lists the requested authors:
      one entry per requested id, the same set of ids, and each entry with its
      author's name. No order is claimed. */
  lemma CreatedBookListsItsAuthors(dto: CreateBookDTO, freshId: Guid, table: map<Guid, Author>)
    requires DistinctIds(dto.authorIds.GetOr([]))
    requires forall j :: 0 <= j < |dto.authorIds.GetOr([])| ==> dto.authorIds.value[j] in table
    requires forall id :: id in table ==> table[id].id == id
    ensures var saved := CreateBook(dto, freshId).saved;
            var listed := GetBooks([IncludeAuthors(saved, table)])[0];
            && |listed.authors| == |dto.authorIds.GetOr([])|
            && (set a | a in listed.authors :: a.id) == (set id | id in dto.authorIds.GetOr([]))
            && forall a :: a in listed.authors ==> a.id in table && a.name == table[a.id].name
  {
    var ids := dto.authorIds.GetOr([]);
    var saved := CreateBook(dto, freshId).saved;
    var loaded := IncludeAuthors(saved, table);
    assert AllAuthorsLoaded([loaded]);
    var listed := GetBooks([loaded])[0];
    assert [loaded][0] == loaded;
    assert E: forall j :: 0 <= j < |listed.authors| ==>
                listed.authors[j].id == ids[j] && listed.authors[j].name == table[ids[j]].name by {
      forall j | 0 <= j < |listed.authors|
        ensures listed.authors[j].id == ids[j] && listed.authors[j].name == table[ids[j]].name
      {
        assert listed.authors[j] == AuthorEntry(loaded.bookAuthors[j]);
      }
    }
    forall id | id in ids
      ensures id in (set a | a in listed.authors :: a.id)
    {
      var j :| 0 <= j < |ids| && ids[j] == id;
      assert listed.authors[j] in listed.authors;
    }
  }

  /** `POST /books/bulk`: reject a missing or empty list, otherwise build one
      book per request, in order, with the server's ids, and answer with their
      summaries. */
  method CreateBooksBulk(dtos: Option<seq<CreateBookDTO>>, freshIds: seq<Guid>) returns (r: Created<seq<Book>, seq<BookDTO>>)
    requires |freshIds| == |dtos.GetOr([])|
    ensures r.BadRequest? <==> dtos.None? || |dtos.value| == 0
    ensures r.BadRequest? ==> r.message == "Empty book list."
    ensures r.Created? ==>
              && |r.saved| == |dtos.value| && |r.body| == |dtos.value|
              && forall i :: 0 <= i < |dtos.value| ==>
                   r.saved[i] == CreateBook(dtos.value[i], freshIds[i]).saved
                   && r.body[i] == CreateBook(dtos.value[i], freshIds[i]).body
  {
    if dtos.None? || |dtos.value| == 0 {
      return BadRequest("Empty book list.");
    }
    var requests := dtos.value;
    var books: seq<Book> := [];
    var i := 0;
    while i < |requests|
      invariant 0 <= i <= |requests|
      invariant |books| == i
      invariant forall k :: 0 <= k < i ==> books[k] == NewBook(requests[k], freshIds[k])
    {
      var d := requests[i];
      var tags := if d.tags.Some? then d.tags.value else [];
      var book := Book(freshIds[i], d.title, Some(d.description), tags, []);
      if d.authorIds.Some? && |d.authorIds.value| > 0 {
        book := book.(bookAuthors := NewJoins(book.id, d.authorIds.value));
      }
      books := books + [book];
      i := i + 1;
    }
    r := Created(books, GetBooksWithoutAuthors(books));
  }

  /** A bulk request for one book stores and answers what a single create does. */
  method BulkOfOneIsSingle(dto: CreateBookDTO, freshId: Guid) returns (bulk: Created<seq<Book>, seq<BookDTO>>)
    ensures bulk.Created?
    ensures bulk.saved == [CreateBook(dto, freshId).saved] && bulk.body == [CreateBook(dto, freshId).body]
  {
    bulk := CreateBooksBulk(Some([dto]), [freshId]);
  }

  // ---------------------------------------------------------------------------
  // Search
  // ---------------------------------------------------------------------------

  /** The fields of a book document a search can filter on or return. */
  datatype SearchField = IdField | TitleField | DescriptionField | AuthorsField | TagsField

  /** One `wildcard` clause: a field, a pattern and an optional boost. */
  datatype WildcardClause = WildcardClause(field: SearchField, pattern: string, boost: Option<int>)

  /** A search request: the index it targets, the fields `_source` returns and
      the `should` clauses of a `bool` query, of which at least one must match. */
  datatype SearchRequest = SearchRequest(index: string, sourceIncludes: set<SearchField>, should: seq<WildcardClause>)

  const SearchIndex: string := "books_items"

  /** The pattern every clause uses: the lower-cased term between two stars. */
  function SearchPattern(term: string): (p: string)
    ensures NoWildcards(term) ==> forall s :: GlobMatch(p, s) <==> IsSubstring(Lower(term), s)
  {
    var p := "*" + Lower(term) + "*";
    if NoWildcards(term) then
      LowerKeepsWildcards(term);
      assert forall s :: GlobMatch(p, s) <==> IsSubstring(Lower(term), s) by {
        forall s ensures GlobMatch(p, s) <==> IsSubstring(Lower(term), s) {
          SubstringPattern(Lower(term), s);
        }
      }
      p
    else p
  }

  /** A backslash in the term escapes the character after it, so a term
      holding one can match titles that do not contain it: `\b` finds "b". */
  lemma BackslashTermIsNotSubstring()
    ensures GlobMatch(SearchPattern("\\b"), "b")
    ensures !IsSubstring(Lower("\\b"), "b")
  {
    var p := SearchPattern("\\b");
    assert Lower("\\b") == "\\b";
    assert p == "*\\b*";
    assert GlobMatch(p[3..], "");
    assert GlobMatch(p[1..], "b");
  }

  /** The three clauses of the query: title (boost 3), tags (boost 2) and
      description (no boost); the author names are not searched. */
  function Clauses(term: string): (c: seq<WildcardClause>)
    ensures |c| == 3
    ensures forall j :: 0 <= j < 3 ==> c[j].pattern == SearchPattern(term) && c[j].field != AuthorsField
    ensures c[0] == WildcardClause(TitleField, SearchPattern(term), Some(3))
    ensures c[1] == WildcardClause(TagsField, SearchPattern(term), Some(2))
    ensures c[2] == WildcardClause(DescriptionField, SearchPattern(term), None)
  {
    var p := SearchPattern(term);
    [WildcardClause(TitleField, p, Some(3)), WildcardClause(TagsField, p, Some(2)), WildcardClause(DescriptionField, p, None)]
  }

  /** The request as the code builds it: `_source` returns title, tags and
      description only. */
  function SearchRequestAsWritten(term: string): SearchRequest {
    SearchRequest(SearchIndex, {TitleField, TagsField, DescriptionField}, Clauses(term))
  }

  /** The request with the id added to `_source`, so that each hit keeps the
      id of the book it stands for. */
  function SearchRequestFor(term: string): (req: SearchRequest)
    ensures req.index == SearchIndex && IdField in req.sourceIncludes
    ensures req.should == SearchRequestAsWritten(term).should
  {
    SearchRequest(SearchIndex, {IdField, TitleField, TagsField, DescriptionField}, Clauses(term))
  }

  /** The terms the backend indexed for each field of a document (its analysis
      is not modelled); a missing field has none. */
  type Terms = map<SearchField, seq<string>>

  function TermsOf(t: Terms, f: SearchField): seq<string> {
    if f in t then t[f] else []
  }

  /** A wildcard clause matches when some indexed term of its field matches
      its pattern. */
  predicate ClauseMatches(c: WildcardClause, t: Terms) {
    exists i :: 0 <= i < |TermsOf(t, c.field)| && GlobMatch(c.pattern, TermsOf(t, c.field)[i])
  }

  /** A `bool` query with only `should` clauses matches when one of them does. */
  predicate Matches(req: SearchRequest, t: Terms) {
    exists j :: 0 <= j < |req.should| && ClauseMatches(req.should[j], t)
  }

  /** Some indexed term of the field contains `p`. */
  predicate SomeTermContains(t: Terms, f: SearchField, p: string) {
    exists i :: 0 <= i < |TermsOf(t, f)| && IsSubstring(p, TermsOf(t, f)[i])
  }

  /** For a term without wildcard characters, a document is a hit exactly when
      the lower-cased term occurs inside one of its title, tag or description
      terms. */
  lemma SearchMatchesSubstring(term: string, t: Terms)
    requires NoWildcards(term)
    ensures Matches(SearchRequestFor(term), t)
            <==> (SomeTermContains(t, TitleField, Lower(term))
                  || SomeTermContains(t, TagsField, Lower(term))
                  || SomeTermContains(t, DescriptionField, Lower(term)))
  {
    var c := Clauses(term);
    var p := SearchPattern(term);
    forall j | 0 <= j < 3
      ensures ClauseMatches(c[j], t) <==> SomeTermContains(t, c[j].field, Lower(term))
    {
      var ts := TermsOf(t, c[j].field);
      if ClauseMatches(c[j], t) {
        var i :| 0 <= i < |ts| && GlobMatch(p, ts[i]);
        assert IsSubstring(Lower(term), ts[i]);
      }
      if SomeTermContains(t, c[j].field, Lower(term)) {
        var i :| 0 <= i < |ts| && IsSubstring(Lower(term), ts[i]);
        assert GlobMatch(p, ts[i]);
      }
    }
    assert c[0].field == TitleField && c[1].field == TagsField && c[2].field == DescriptionField;
  }

  /** Whatever the author names of a document are, they do not decide whether
      it is a hit. */
  lemma AuthorsNeverSearched(term: string, t: Terms, names: seq<string>)
    ensures Matches(SearchRequestFor(term), t) <==> Matches(SearchRequestFor(term), t[AuthorsField := names])
  {
    var c := Clauses(term);
    var t2 := t[AuthorsField := names];
    forall j | 0 <= j < |c|
      ensures TermsOf(t, c[j].field) == TermsOf(t2, c[j].field)
    {
    }
    if Matches(SearchRequestFor(term), t) {
      var j :| 0 <= j < |c| && ClauseMatches(c[j], t);
      assert ClauseMatches(c[j], t2);
    }
    if Matches(SearchRequestFor(term), t2) {
      var j :| 0 <= j < |c| && ClauseMatches(c[j], t2);
      assert ClauseMatches(c[j], t);
    }
  }

  /** Called with the empty term, the search's pattern is `**`, which makes
      every document with a title term a hit. */
  lemma EmptyTermMatchesEveryTitle(t: Terms)
    requires |TermsOf(t, TitleField)| > 0
    ensures Matches(SearchRequestFor(""), t)
  {
    var c := Clauses("");
    assert Lower("") == "";
    assert SearchPattern("") == "**";
    DoubleStarMatchesAll(TermsOf(t, TitleField)[0]);
    assert ClauseMatches(c[0], t);
  }

  /** A hit as the client deserialises it. Only the fields the DTO reads are
      kept; `tags` is `None` when the stored source holds `null`. */
  datatype Hit = Hit(id: Guid, title: string, description: Option<string>, tags: Option<seq<string>>)

  /** A stored document as a hit returns it: the fields `_source` leaves out
      keep their defaults (the empty Guid, no description, an empty list). */
  function FilterSource(doc: BookSearchModel, includes: set<SearchField>): (hit: Hit)
    ensures hit.id == (if IdField in includes then doc.id else EmptyGuid)
    ensures TitleField in includes ==> hit.title == doc.title
    ensures DescriptionField in includes ==> hit.description == doc.description
    ensures TagsField in includes ==> hit.tags == Some(doc.tags)
  {
    Hit(
      if IdField in includes then doc.id else EmptyGuid,
      if TitleField in includes then doc.title else "",
      if DescriptionField in includes then doc.description else None,
      Some(if TagsField in includes then doc.tags else []))
  }

  /** The backend's answer to a search request. */
  datatype SearchResponse = SearchResponse(valid: bool, errorMessage: string, documents: seq<Hit>)

  /** The DTO of one hit: id, title, description and tags, a `null` tag list
      read as empty; no authors. */
  function HitDto(h: Hit): (d: BookDTO)
    ensures d.id == h.id && d.title == h.title && d.description == h.description && d.authors == []
    ensures d.tags == (if h.tags.Some? then h.tags.value else [])
  {
    BookDTO(h.id, h.title, h.description, [], h.tags.GetOr([]))
  }

  /** The DTO a stored document should come back as: all four fields. */
  function DocDto(doc: BookSearchModel): BookDTO {
    BookDTO(doc.id, doc.title, doc.description, [], doc.tags)
  }

  const SearchErrorPrefix: string := "Ошибка поиска: "

  /** Map the backend's answer to the hits' DTOs, in the order the backend
      ranked them; an invalid answer becomes an error carrying its message. */
  function MapHits(response: SearchResponse): (r: Result<seq<BookDTO>, string>)
    ensures r.Failure? <==> !response.valid
    ensures r.Failure? ==> r.error == SearchErrorPrefix + response.errorMessage
    ensures r.Success? ==> |r.value| == |response.documents|
    ensures r.Success? ==> forall i :: 0 <= i < |r.value| ==> r.value[i] == HitDto(response.documents[i])
  {
    if !response.valid then Failure(SearchErrorPrefix + response.errorMessage)
    else Success(seq(|response.documents|, i requires 0 <= i < |response.documents| => HitDto(response.documents[i])))
  }

  /** `GET /books/search` as the code builds it: the request it sends, and the
      result for the backend's answer to that request. */
  function SearchBooksAsWritten(term: string, response: SearchResponse): (res: (SearchRequest, Result<seq<BookDTO>, string>))
    ensures res.0.index == SearchIndex && res.0.should == Clauses(term)
    ensures IdField !in res.0.sourceIncludes && AuthorsField !in res.0.sourceIncludes
    ensures res.1.Failure? <==> !response.valid
    ensures res.1.Failure? ==> res.1.error == SearchErrorPrefix + response.errorMessage
    ensures res.1.Success? ==> |res.1.value| == |response.documents|
    ensures res.1.Success? ==> forall i :: 0 <= i < |res.1.value| ==>
              res.1.value[i].id == response.documents[i].id && res.1.value[i].authors == []
  {
    (SearchRequestAsWritten(term), MapHits(response))
  }

  /** `GET /books/search` with the id returned. */
  function SearchBooks(term: string, response: SearchResponse): (res: (SearchRequest, Result<seq<BookDTO>, string>))
    ensures res.0.index == SearchIndex && res.0.should == Clauses(term)
    ensures IdField in res.0.sourceIncludes && AuthorsField !in res.0.sourceIncludes
    ensures res.1.Failure? <==> !response.valid
    ensures res.1.Failure? ==> res.1.error == SearchErrorPrefix + response.errorMessage
    ensures res.1.Success? ==> |res.1.value| == |response.documents|
    ensures res.1.Success? ==> forall i :: 0 <= i < |res.1.value| ==>
              res.1.value[i].id == response.documents[i].id && res.1.value[i].authors == []
  {
    (SearchRequestFor(term), MapHits(response))
  }

  /** A stored document together with the terms the backend indexed for it. */
  datatype Indexed = Indexed(doc: BookSearchModel, terms: Terms)

  /** The backend's default page size: the request sets no `size`, so at most
      this many hits come back. */
  const DefaultSize: nat := 10

  /** The positions of the stored documents that match `req`. */
  function MatchingPositions(req: SearchRequest, stored: seq<Indexed>): set<int> {
    set k | 0 <= k < |stored| && Matches(req, stored[k].terms)
  }

  /** `found` is a correct first page of the answer to `req` over the stored
      documents: each hit is the `_source`-filtered form of a matching
      document; the page holds at most `DefaultSize` hits, and a full page when
      more documents match; when no more than `DefaultSize` match, every one of
      them is among the hits. Which documents fill a full page (the ranking) is
      not modelled. */
  predicate Answers(found: seq<Hit>, req: SearchRequest, stored: seq<Indexed>) {
    && |found| <= DefaultSize
    && (|MatchingPositions(req, stored)| > DefaultSize ==> |found| == DefaultSize)
    && (forall i :: 0 <= i < |found| ==>
          exists k :: 0 <= k < |stored| && Matches(req, stored[k].terms)
                      && found[i] == FilterSource(stored[k].doc, req.sourceIncludes))
    && (|MatchingPositions(req, stored)| <= DefaultSize ==>
          forall k :: 0 <= k < |stored| && Matches(req, stored[k].terms) ==>
            FilterSource(stored[k].doc, req.sourceIncludes) in found)
  }

  /** `d` is the hit DTO of a stored document that matches `req`. */
  predicate IsHitOfMatch(d: BookDTO, req: SearchRequest, stored: seq<Indexed>) {
    exists k :: 0 <= k < |stored| && Matches(req, stored[k].terms)
                && d == HitDto(FilterSource(stored[k].doc, req.sourceIncludes))
  }

  /** Over a correct answer, the DTOs of a successful search are hit DTOs of
      `_source`-filtered matching documents, at most `DefaultSize` of them, and
      all of them when no more than that many documents match. */
  lemma MapHitsFindsMatches(req: SearchRequest, response: SearchResponse, stored: seq<Indexed>)
    requires response.valid ==> Answers(response.documents, req, stored)
    ensures var r := MapHits(response);
            r.Success? ==>
              && |r.value| <= DefaultSize
              && (forall i :: 0 <= i < |r.value| ==> IsHitOfMatch(r.value[i], req, stored))
              && (|MatchingPositions(req, stored)| <= DefaultSize ==>
                    forall k :: 0 <= k < |stored| && Matches(req, stored[k].terms) ==>
                      HitDto(FilterSource(stored[k].doc, req.sourceIncludes)) in r.value)
  {
    var r := MapHits(response);
    if r.Success? {
      var found := response.documents;
      assert response.valid && Answers(found, req, stored);
      forall i | 0 <= i < |r.value|
        ensures IsHitOfMatch(r.value[i], req, stored)
      {
        assert i < |found| && found[i] == found[i];
        var k :| 0 <= k < |stored| && Matches(req, stored[k].terms) && found[i] == FilterSource(stored[k].doc, req.sourceIncludes);
        assert r.value[i] == HitDto(found[i]);
      }
      forall k | |MatchingPositions(req, stored)| <= DefaultSize && 0 <= k < |stored| && Matches(req, stored[k].terms)
        ensures HitDto(FilterSource(stored[k].doc, req.sourceIncludes)) in r.value
      {
        var i :| 0 <= i < |found| && found[i] == FilterSource(stored[k].doc, req.sourceIncludes);
        assert r.value[i] == HitDto(found[i]);
      }
    }
  }

  /** As written, every hit comes back with the empty Guid as its id, whatever
      book it stands for. */
  lemma AsWrittenSearchLosesIds(term: string, response: SearchResponse, stored: seq<Indexed>)
    requires response.valid ==> Answers(response.documents, SearchRequestAsWritten(term), stored)
    ensures var r := SearchBooksAsWritten(term, response).1;
            r.Success? ==> forall i :: 0 <= i < |r.value| ==> r.value[i].id == EmptyGuid
  {
    var req := SearchRequestAsWritten(term);
    MapHitsFindsMatches(req, response, stored);
    assert IdField !in req.sourceIncludes;
  }

  /** Concretely: the hit of any stored book with a non-empty id carries the
      empty id instead of its own. */
  lemma AsWrittenHitDiffersFromBook(book: Book)
    requires AuthorsLoaded(book) && book.id != EmptyGuid
    ensures var doc := IndexingService.ProjectBook(book);
            HitDto(FilterSource(doc, SearchRequestAsWritten("x").sourceIncludes)).id != book.id
  {
  }

  /** `d` is the DTO, id included, of a stored document that matches `req`. */
  predicate IsDtoOfMatch(d: BookDTO, req: SearchRequest, stored: seq<Indexed>) {
    exists k :: 0 <= k < |stored| && Matches(req, stored[k].terms) && d == DocDto(stored[k].doc)
  }

  /** With the id returned, the search finds the matching stored books: every
      hit is the author-less DTO of a matching document, there are at most
      `DefaultSize` hits, and when no more than that many documents match,
      every one of them is among the hits. */
  lemma SearchFindsExactlyMatches(term: string, response: SearchResponse, stored: seq<Indexed>)
    requires response.valid ==> Answers(response.documents, SearchRequestFor(term), stored)
    ensures var req := SearchRequestFor(term);
            var r := SearchBooks(term, response).1;
            r.Success? ==>
              && |r.value| <= DefaultSize
              && (forall i :: 0 <= i < |r.value| ==> IsDtoOfMatch(r.value[i], req, stored))
              && (|MatchingPositions(req, stored)| <= DefaultSize ==>
                    forall k :: 0 <= k < |stored| && Matches(req, stored[k].terms) ==> DocDto(stored[k].doc) in r.value)
  {
    var req := SearchRequestFor(term);
    var r := MapHits(response);
    MapHitsFindsMatches(req, response, stored);
    if r.Success? {
      forall i | 0 <= i < |r.value|
        ensures IsDtoOfMatch(r.value[i], req, stored)
      {
        assert IsHitOfMatch(r.value[i], req, stored);
        var k :| 0 <= k < |stored| && Matches(req, stored[k].terms)
                 && r.value[i] == HitDto(FilterSource(stored[k].doc, req.sourceIncludes));
        assert r.value[i] == DocDto(stored[k].doc);
      }
      forall k | |MatchingPositions(req, stored)| <= DefaultSize && 0 <= k < |stored| && Matches(req, stored[k].terms)
        ensures DocDto(stored[k].doc) in r.value
      {
        assert HitDto(FilterSource(stored[k].doc, req.sourceIncludes)) == DocDto(stored[k].doc);
      }
    }
  }

  /** The hit of a reindexed book, with the id returned, is the book's entry in
      the author-less listing. */
  lemma HitOfIndexedBookIsItsSummary(book: Book)
    requires AuthorsLoaded(book)
    ensures HitDto(FilterSource(IndexingService.ProjectBook(book), SearchRequestFor("").sourceIncludes)) == Summary(book)
  {
  }
}

=== FILE: contracts.dfy ===
/** The request and response shapes of the HTTP API. */
module Contracts {
  import opened Outcomes
  import opened Domain

  /** An author as returned by the API. `tags` defaults to empty when the
      mapping leaves it unset. */
  datatype AuthorDTO = AuthorDTO(id: Guid, name: string, tags: seq<string>)

  /** A book as returned by the API. `authors` defaults to empty when the
      mapping leaves it unset. */
  datatype BookDTO = BookDTO(
    id: Guid,
    title: string,
    description: Option<string>,
    authors: seq<AuthorDTO>,
    tags: seq<string>)

  /** A request to create a book. The two lists are `None` when the request body
      sends `null` for them. */
  datatype CreateBookDTO = CreateBookDTO(
    title: string,
    description: string,
    authorIds: Option<seq<Guid>>,
    tags: Option<seq<string>>)

  datatype CreateAuthorDTO = CreateAuthorDTO(name: string, tags: Option<seq<string>>)

  /** What a create endpoint answers: the entities it hands to the store and the
      response body, or a rejection before anything is saved. */
  datatype Created<+E, +D> = Created(saved: E, body: D) | BadRequest(message: string)
}

=== FILE: domain.dfy ===
/** The relational entities of the catalog: books, authors and the join record
    that realises their many-to-many relation. */
module Domain {
  import opened Outcomes

  /** A Guid, modelled by its value; `Guid.Empty` (all zero bits) is 0. */
  type Guid = nat

  const EmptyGuid: Guid := 0

  /** A book as the code uses it. The entity class declares a collection of
      authors, but every reader and the database mapping go through the join
      records, so the book carries those. */
  datatype Book = Book(
    id: Guid,
    title: string,
    description: Option<string>,
    tags: seq<string>,
    bookAuthors: seq<BookAuthor>)

  datatype Author = Author(
    id: Guid,
    name: string,
    bookAuthors: seq<BookAuthor>,
    tags: seq<string>)

  /** A join record. Its navigations are `None` until loaded (a record built for
      a new book has only the two keys). */
  datatype BookAuthor = BookAuthor(
    bookId: Guid,
    book: Option<Book>,
    authorId: Guid,
    author: Option<Author>)

  /** The composite primary key of a join record. */
  datatype JoinKey = JoinKey(bookId: Guid, authorId: Guid)

  function KeyOf(ba: BookAuthor): JoinKey {
    JoinKey(ba.bookId, ba.authorId)
  }

  /** Every join record of the book has its author navigation loaded. */
  predicate AuthorsLoaded(b: Book) {
    forall i :: 0 <= i < |b.bookAuthors| ==> b.bookAuthors[i].author.Some?
  }

  /** Every join record of the author has its book navigation loaded. */
  predicate BooksLoaded(a: Author) {
    forall i :: 0 <= i < |a.bookAuthors| ==> a.bookAuthors[i].book.Some?
  }

  predicate AllAuthorsLoaded(books: seq<Book>) {
    forall i :: 0 <= i < |books| ==> AuthorsLoaded(books[i])
  }

  predicate AllBooksLoaded(authors: seq<Author>) {
    forall i :: 0 <= i < |authors| ==> BooksLoaded(authors[i])
  }

  /** The book's join records are exactly the rows of `joins` that carry its id,
      and each loaded author navigation is the author the foreign key names. */
  ghost predicate BookLoadedFrom(b: Book, joins: set<JoinKey>) {
    && AuthorsLoaded(b)
    && (forall i :: 0 <= i < |b.bookAuthors| ==>
          && b.bookAuthors[i].bookId == b.id
          && KeyOf(b.bookAuthors[i]) in joins
          && b.bookAuthors[i].author.value.id == b.bookAuthors[i].authorId)
    && (forall k :: k in joins && k.bookId == b.id ==>
          exists i :: 0 <= i < |b.bookAuthors| && KeyOf(b.bookAuthors[i]) == k)
  }

  /** The author's join records are exactly the rows of `joins` that carry its id,
      and each loaded book navigation is the book the foreign key names. */
  ghost predicate AuthorLoadedFrom(a: Author, joins: set<JoinKey>) {
    && BooksLoaded(a)
    && (forall i :: 0 <= i < |a.bookAuthors| ==>
          && a.bookAuthors[i].authorId == a.id
          && KeyOf(a.bookAuthors[i]) in joins
          && a.bookAuthors[i].book.value.id == a.bookAuthors[i].bookId)
    && (forall k :: k in joins && k.authorId == a.id ==>
          exists i :: 0 <= i < |a.bookAuthors| && KeyOf(a.bookAuthors[i]) == k)
  }
}

=== FILE: index_store.dfy ===
/** An abstract search backend: named indices, each a map from document id to
    document, plus the three operations reindexing uses (existence check,
    index creation, bulk write) and the faults each of them can meet.

    A bulk write is modelled as an upsert keyed by the document's `Id`: a
    document replaces whatever the index held under the same id, and the
    documents of one request are applied in order. This is an assumption
    about the client and the backend, which are not part of this model. */
module IndexStore {
  import opened Outcomes
  import opened Domain
  import opened SearchModels

  /** The two logical indices. Their literal names are defined outside this model. */
  datatype IndexName = BookIndex | AuthorIndex

  datatype Document = BookDoc(book: BookSearchModel) | AuthorDoc(author: AuthorSearchModel) {
    /** The id the bulk write keys the document by. */
    function Id(): Guid {
      match this
      case BookDoc(b) => b.id
      case AuthorDoc(a) => a.id
    }
  }

  type Index = map<Guid, Document>

  /** The backend state; an index name that is not a key does not exist. */
  type Store = map<IndexName, Index>

  /** The contents of an index, empty when it does not exist. */
  function Contents(store: Store, n: IndexName): Index {
    if n in store then store[n] else map[]
  }

  function BookDocs(models: seq<BookSearchModel>): (docs: seq<Document>)
    ensures |docs| == |models|
    ensures forall i :: 0 <= i < |models| ==> docs[i] == BookDoc(models[i])
  {
    seq(|models|, i requires 0 <= i < |models| => BookDoc(models[i]))
  }

  function AuthorDocs(models: seq<AuthorSearchModel>): (docs: seq<Document>)
    ensures |docs| == |models|
    ensures forall i :: 0 <= i < |models| ==> docs[i] == AuthorDoc(models[i])
  {
    seq(|models|, i requires 0 <= i < |models| => AuthorDoc(models[i]))
  }

  /** The ids of a batch of documents. */
  function IdsOf(docs: seq<Document>): set<Guid> {
    set i | 0 <= i < |docs| :: docs[i].Id()
  }

  /** The index after a bulk write of `docs`, applied one by one in order. */
  function Upsert(ix: Index, docs: seq<Document>): (r: Index)
    ensures r.Keys == ix.Keys + IdsOf(docs)
    ensures forall k :: k in ix && k !in IdsOf(docs) ==> r[k] == ix[k]
    decreases |docs|
  {
    if docs == [] then ix
    else
      var init := docs[..|docs| - 1];
      var last := docs[|docs| - 1];
      assert IdsOf(docs) == IdsOf(init) + {last.Id()} by {
        assert forall i :: 0 <= i < |init| ==> init[i] == docs[i];
      }
      Upsert(ix, init)[last.Id() := last]
  }

  /** A document that no later document of the batch shares an id with is the
      one the index holds under that id afterwards. */
  lemma {:induction false} LastWriteWins(ix: Index, docs: seq<Document>, i: int)
    requires 0 <= i < |docs|
    requires forall j :: i < j < |docs| ==> docs[j].Id() != docs[i].Id()
    ensures Upsert(ix, docs)[docs[i].Id()] == docs[i]
    decreases |docs|
  {
    if i < |docs| - 1 {
      var init := docs[..|docs| - 1];
      LastWriteWins(ix, init, i);
    }
  }

  /** With pairwise distinct ids every document of the batch ends up in the index. */
  lemma DistinctIdsAllWritten(ix: Index, docs: seq<Document>)
    requires forall i, j :: 0 <= i < j < |docs| ==> docs[i].Id() != docs[j].Id()
    ensures forall i :: 0 <= i < |docs| ==> Upsert(ix, docs)[docs[i].Id()] == docs[i]
  {
    forall i | 0 <= i < |docs|
      ensures Upsert(ix, docs)[docs[i].Id()] == docs[i]
    {
      LastWriteWins(ix, docs, i);
    }
  }

  /** A bulk write overrides the old index with what the batch alone would build. */
  lemma {:induction false} UpsertOverrides(ix: Index, docs: seq<Document>)
    ensures Upsert(ix, docs) == ix + Upsert(map[], docs)
    decreases |docs|
  {
    if docs != [] {
      var init := docs[..|docs| - 1];
      UpsertOverrides(ix, init);
    }
  }

  /** Writing a batch after a batch whose ids it covers gives the same index as
      writing it alone: earlier writes under those ids are all overwritten. */
  lemma UpsertAbsorbs(ix: Index, part: seq<Document>, docs: seq<Document>)
    requires IdsOf(part) <= IdsOf(docs)
    ensures Upsert(Upsert(ix, part), docs) == Upsert(ix, docs)
  {
    var p := Upsert(map[], part);
    var l := Upsert(map[], docs);
    UpsertOverrides(ix, part);
    UpsertOverrides(Upsert(ix, part), docs);
    UpsertOverrides(ix, docs);
    assert (ix + p) + l == ix + l;
  }

  /** Writing the same batch twice leaves the index as writing it once. */
  lemma UpsertIdempotent(ix: Index, docs: seq<Document>)
    ensures Upsert(Upsert(ix, docs), docs) == Upsert(ix, docs)
  {
    UpsertAbsorbs(ix, docs, docs);
  }

  /** The documents of a batch the backend accepts when it rejects the items
      with the given ids, in their original order. */
  function Accepted(docs: seq<Document>, rejected: set<Guid>): (r: seq<Document>)
    ensures IdsOf(r) == IdsOf(docs) - rejected
    decreases |docs|
  {
    if docs == [] then []
    else
      var rest := Accepted(docs[1..], rejected);
      IdsOfCons(docs[0], docs[1..]);
      assert [docs[0]] + docs[1..] == docs;
      if docs[0].Id() in rejected then rest
      else
        IdsOfCons(docs[0], rest);
        [docs[0]] + rest
  }

  lemma IdsOfCons(d: Document, docs: seq<Document>)
    ensures IdsOf([d] + docs) == {d.Id()} + IdsOf(docs)
  {
    var s := [d] + docs;
    assert forall i :: 0 < i < |s| ==> s[i] == docs[i - 1];
    assert forall i :: 0 <= i < |docs| ==> docs[i] == s[i + 1];
    assert s[0] == d;
  }

  /** Which existence check of a reindex run a fault refers to. */
  datatype Check = FirstCheck(index: IndexName) | Recheck(index: IndexName)

  /** How the backend can refuse a bulk request: as a whole, with the server's
      reason, or item by item, with the request itself accepted. */
  datatype BulkFault = RequestRejected(reason: string) | ItemsRejected(ids: set<Guid>)

  /** The faults a reindex run meets. A failed existence check reads as "absent"
      (the client's `Exists` is true only for a successful call that found the
      index). */
  datatype Faults = Faults(
    failedChecks: set<Check>,
    rejectedCreates: map<IndexName, string>,
    rejectedBulks: map<IndexName, BulkFault>)

  const NoFaults: Faults := Faults({}, map[], map[])

  /** The diagnostic the backend gives when asked to create an index that exists. */
  const AlreadyExists: string := "resource_already_exists_exception"

  /** What an existence check reports. */
  function Exists(store: Store, faults: Faults, check: Check): (r: bool)
    ensures r ==> check.index in store
    ensures check !in faults.failedChecks ==> (r <==> check.index in store)
  {
    check.index in store && check !in faults.failedChecks
  }

  /** Index creation: an empty index, or the backend's diagnostic. Creating an
      index that already exists is refused. */
  function Create(store: Store, n: IndexName, faults: Faults): (r: Result<Store, string>)
    ensures r.Success? <==> n !in store && n !in faults.rejectedCreates
    ensures r.Success? ==> r.value == store[n := map[]]
  {
    if n in store then Failure(AlreadyExists)
    else if n in faults.rejectedCreates then Failure(faults.rejectedCreates[n])
    else Success(store[n := map[]])
  }

  /** The answer to a bulk request: whether it is valid, the server's reason
      when it is not (empty when the server gave none), and the backend state
      after it. */
  datatype BulkResponse = BulkResponse(valid: bool, reason: string, store: Store)

  /** Writing `docs` over `after` gives the same index as writing them over
      `before`: whatever separates the two is overwritten by a full write. */
  predicate Absorbed(before: Index, after: Index, docs: seq<Document>) {
    Upsert(after, docs) == Upsert(before, docs)
  }

  /** The backend's reason for refusing a bulk request with no documents: the
      request then has an empty body. */
  const EmptyBodyReason: string := "request body is required"

  /** A bulk request: refused when it carries no documents, refused as a whole
      or in part when a fault says so, and otherwise an upsert of the batch. */
  function Bulk(store: Store, n: IndexName, docs: seq<Document>, faults: Faults): (r: BulkResponse)
    requires n in store
    ensures docs == [] ==> !r.valid && r.reason == EmptyBodyReason && r.store == store
    ensures r.valid <==> docs != [] && (n !in faults.rejectedBulks
                          || (faults.rejectedBulks[n].ItemsRejected? && faults.rejectedBulks[n].ids !! IdsOf(docs)))
    ensures r.valid ==> r.store == store[n := Upsert(store[n], docs)]
    ensures n in r.store && Absorbed(store[n], r.store[n], docs)
    ensures forall m :: m != n ==> (m in r.store <==> m in store)
    ensures forall m :: m != n && m in store ==> r.store[m] == store[m]
  {
    if docs == [] then BulkResponse(false, EmptyBodyReason, store)
    else if n !in faults.rejectedBulks then
      assert Absorbed(store[n], Upsert(store[n], docs), docs) by {
        UpsertIdempotent(store[n], docs);
      }
      BulkResponse(true, "", store[n := Upsert(store[n], docs)])
    else
      match faults.rejectedBulks[n]
      case RequestRejected(reason) => BulkResponse(false, reason, store)
      case ItemsRejected(ids) =>
        var part := Accepted(docs, ids);
        var written := store[n := Upsert(store[n], part)];
        assert Absorbed(store[n], Upsert(store[n], part), docs) by {
          UpsertAbsorbs(store[n], part, docs);
        }
        if ids !! IdsOf(docs) then
          assert Upsert(store[n], part) == Upsert(store[n], docs) by {
            AcceptedNothingRejected(docs, ids);
          }
          BulkResponse(true, "", written)
        else BulkResponse(false, "", written)
  }

  lemma {:induction false} AcceptedNothingRejected(docs: seq<Document>, rejected: set<Guid>)
    requires rejected !! IdsOf(docs)
    ensures Accepted(docs, rejected) == docs
    decreases |docs|
  {
    if docs != [] {
      assert docs[0].Id() in IdsOf(docs);
      assert IdsOf(docs[1..]) <= IdsOf(docs) by {
        assert forall i :: 0 < i < |docs| ==> docs[1..][i - 1] == docs[i];
      }
      AcceptedNothingRejected(docs[1..], rejected);
      assert [docs[0]] + docs[1..] == docs;
    }
  }
}

=== FILE: indexing_service.dfy ===
/** Reindexing: projecting books and authors into search documents and the
    sequential create-then-bulk-write procedure that refreshes both indices. */
module IndexingService {
  import opened Outcomes
  import opened Domain
  import opened SearchModels
  import opened IndexStore

  // ---------------------------------------------------------------------------
  // Projections
  // ---------------------------------------------------------------------------

  /** The search document of one book: its scalar fields, its tags as they are,
      and one `{id, name}` reference per join record. */
  function ProjectBook(b: Book): (d: BookSearchModel)
    requires AuthorsLoaded(b)
    ensures d.id == b.id && d.title == b.title && d.description == b.description
    ensures d.tags == b.tags
    ensures |d.authors| == |b.bookAuthors|
    ensures forall i :: 0 <= i < |b.bookAuthors| ==>
              d.authors[i].id == b.bookAuthors[i].author.value.id
              && d.authors[i].name == b.bookAuthors[i].author.value.name
  {
    BookSearchModel(
      b.id,
      b.title,
      b.description,
      seq(|b.bookAuthors|, i requires 0 <= i < |b.bookAuthors| && AuthorsLoaded(b) =>
        var a := b.bookAuthors[i].author.value;
        AuthorNestedModel(a.id, a.name)),
      b.tags)
  }

  /** The search document of one author: its scalar fields, its tags as they
      are, and one `{id, title}` reference per join record. */
  function ProjectAuthor(a: Author): (d: AuthorSearchModel)
    requires BooksLoaded(a)
    ensures d.id == a.id && d.name == a.name
    ensures d.tags == a.tags
    ensures |d.books| == |a.bookAuthors|
    ensures forall i :: 0 <= i < |a.bookAuthors| ==>
              d.books[i].id == a.bookAuthors[i].book.value.id
              && d.books[i].title == a.bookAuthors[i].book.value.title
  {
    AuthorSearchModel(
      a.id,
      a.name,
      seq(|a.bookAuthors|, i requires 0 <= i < |a.bookAuthors| && BooksLoaded(a) =>
        var b := a.bookAuthors[i].book.value;
        BookNestedModel(b.id, b.title)),
      a.tags)
  }

  /** One document per book, in input order. */
  function NormalizeBooks(books: seq<Book>): (docs: seq<BookSearchModel>)
    requires AllAuthorsLoaded(books)
    ensures |docs| == |books|
    ensures forall i :: 0 <= i < |books| ==> docs[i] == ProjectBook(books[i])
  {
    seq(|books|, i requires 0 <= i < |books| && AllAuthorsLoaded(books) => ProjectBook(books[i]))
  }

  /** One document per author, in input order. */
  function NormalizeAuthors(authors: seq<Author>): (docs: seq<AuthorSearchModel>)
    requires AllBooksLoaded(authors)
    ensures |docs| == |authors|
    ensures forall i :: 0 <= i < |authors| ==> docs[i] == ProjectAuthor(authors[i])
  {
    seq(|authors|, i requires 0 <= i < |authors| && AllBooksLoaded(authors) => ProjectAuthor(authors[i]))
  }

  /** A book document's author references name exactly the authors the join
      table links to the book. */
  lemma BookRefsMatchJoinTable(b: Book, joins: set<JoinKey>)
    requires BookLoadedFrom(b, joins)
    ensures var d := ProjectBook(b);
            (set i | 0 <= i < |d.authors| :: d.authors[i].id)
            == (set k | k in joins && k.bookId == b.id :: k.authorId)
  {
    var d := ProjectBook(b);
    var left := set i | 0 <= i < |d.authors| :: d.authors[i].id;
    var right := set k | k in joins && k.bookId == b.id :: k.authorId;
    forall x | x in left ensures x in right {
      var i :| 0 <= i < |d.authors| && d.authors[i].id == x;
      assert KeyOf(b.bookAuthors[i]) in joins;
    }
    forall x | x in right ensures x in left {
      var k :| k in joins && k.bookId == b.id && k.authorId == x;
      var i :| 0 <= i < |b.bookAuthors| && KeyOf(b.bookAuthors[i]) == k;
      assert d.authors[i].id == x;
    }
  }

  /** An author document's book references name exactly the books the join
      table links to the author. */
  lemma AuthorRefsMatchJoinTable(a: Author, joins: set<JoinKey>)
    requires AuthorLoadedFrom(a, joins)
    ensures var d := ProjectAuthor(a);
            (set i | 0 <= i < |d.books| :: d.books[i].id)
            == (set k | k in joins && k.authorId == a.id :: k.bookId)
  {
    var d := ProjectAuthor(a);
    var left := set i | 0 <= i < |d.books| :: d.books[i].id;
    var right := set k | k in joins && k.authorId == a.id :: k.bookId;
    forall x | x in left ensures x in right {
      var i :| 0 <= i < |d.books| && d.books[i].id == x;
      assert KeyOf(a.bookAuthors[i]) in joins;
    }
    forall x | x in right ensures x in left {
      var k :| k in joins && k.authorId == a.id && k.bookId == x;
      var i :| 0 <= i < |a.bookAuthors| && KeyOf(a.bookAuthors[i]) == k;
      assert d.books[i].id == x;
    }
  }

  // ---------------------------------------------------------------------------
  // Reindex
  // ---------------------------------------------------------------------------

  datatype ReindexError =
    | EmptySource
    | IndexCreationError(index: IndexName, diagnostic: string)
    | BulkIndexError(index: IndexName, reason: string)

  /** A request reindexing sends to the backend. */
  datatype Call = ExistsCall(index: IndexName) | CreateCall(index: IndexName) | BulkCall(index: IndexName, docs: seq<Document>)

  /** The outcome of (part of) a reindex run: its result, the backend state it
      leaves, and the requests it sent, in order. */
  datatype Run = Run(result: Result<Unit, ReindexError>, store: Store, calls: seq<Call>)

  function BookDocuments(books: seq<Book>): seq<Document>
    requires AllAuthorsLoaded(books)
  {
    BookDocs(NormalizeBooks(books))
  }

  function AuthorDocuments(authors: seq<Author>): seq<Document>
    requires AllBooksLoaded(authors)
  {
    AuthorDocs(NormalizeAuthors(authors))
  }

  predicate NoBulk(calls: seq<Call>) {
    forall i :: 0 <= i < |calls| ==> !calls[i].BulkCall?
  }

  /** The bulk requests of a trace, in order. */
  function Bulks(calls: seq<Call>): (r: seq<Call>)
    ensures NoBulk(calls) <==> r == []
  {
    if calls == [] then []
    else (if calls[0].BulkCall? then [calls[0]] else []) + Bulks(calls[1..])
  }

  /** `after` differs from `before` at most by indices created empty: no
      document was written. */
  predicate OnlyCreated(before: Store, after: Store) {
    && before.Keys <= after.Keys
    && (forall n :: n in before ==> after[n] == before[n])
    && (forall n :: n in after && n !in before ==> after[n] == map[])
  }

  predicate NoCreate(calls: seq<Call>) {
    forall i :: 0 <= i < |calls| ==> !calls[i].CreateCall?
  }

  /** Every creation request of the trace directly follows an existence check
      of the same index, and that check reported the index absent. */
  predicate CreatesOnlyAbsent(calls: seq<Call>, store: Store, faults: Faults) {
    forall i :: 0 <= i < |calls| && calls[i].CreateCall? ==>
      i > 0 && calls[i - 1] == ExistsCall(calls[i].index)
      && !Exists(store, faults, FirstCheck(calls[i].index))
  }

  /** The creation phase for one index: check existence and create it when the
      check reports it absent; a refused creation is an error. */
  function EnsureIndex(n: IndexName, store: Store, faults: Faults): (r: Run)
    ensures CreateCall(n) in r.calls <==> !Exists(store, faults, FirstCheck(n))
    ensures r.calls == [ExistsCall(n)] || r.calls == [ExistsCall(n), CreateCall(n)]
    ensures FirstCheck(n) !in faults.failedChecks && n !in faults.rejectedCreates ==> r.result.Success?
    ensures r.result.Success? ==> r.store == store[n := Contents(store, n)]
    ensures r.result.Failure? ==> && r.result.error.IndexCreationError?
                                  && r.result.error.index == n
                                  && r.store == store
                                  && (n in store || n in faults.rejectedCreates)
  {
    if Exists(store, faults, FirstCheck(n)) then Run(Success(Unit), store, [ExistsCall(n)])
    else
      match Create(store, n, faults)
      case Success(created) => Run(Success(Unit), created, [ExistsCall(n), CreateCall(n)])
      case Failure(diagnostic) => Run(Failure(IndexCreationError(n, diagnostic)), store, [ExistsCall(n), CreateCall(n)])
  }

  /** The state both indices are in once creation has succeeded: each exists,
      with its previous contents, or empty if it was just created. */
  function Prepared(store: Store): (s: Store)
    ensures BookIndex in s && AuthorIndex in s
    ensures OnlyCreated(store, s)
  {
    store[BookIndex := Contents(store, BookIndex)][AuthorIndex := Contents(store, AuthorIndex)]
  }

  /** No existence check of the creation phase fails and no creation is refused. */
  predicate CreationUnhindered(faults: Faults) {
    forall n: IndexName :: FirstCheck(n) !in faults.failedChecks && n !in faults.rejectedCreates
  }

  /** The creation phase: the book index, then the author index. */
  function CreateIndices(store: Store, faults: Faults): (r: Run)
    ensures NoBulk(r.calls)
    ensures CreatesOnlyAbsent(r.calls, store, faults)
    ensures OnlyCreated(store, r.store)
    ensures r.result.Failure? ==> r.result.error.IndexCreationError? && CreateCall(r.result.error.index) in r.calls
    ensures r.result.Success? ==> r.store == Prepared(store)
    ensures CreationUnhindered(faults) ==> r.result.Success?
  {
    var b := EnsureIndex(BookIndex, store, faults);
    if b.result.Failure? then b
    else
      var a := EnsureIndex(AuthorIndex, b.store, faults);
      assert Exists(b.store, faults, FirstCheck(AuthorIndex)) == Exists(store, faults, FirstCheck(AuthorIndex));
      Run(a.result, a.store, b.calls + a.calls)
  }

  /** The bulk writes: the author write, then, if it succeeded, the book write. */
  function WriteBoth(prepared: Store, faults: Faults, authorDocs: seq<Document>, bookDocs: seq<Document>): (r: Run)
    requires BookIndex in prepared && AuthorIndex in prepared
    ensures BookIndex in r.store && AuthorIndex in r.store
    ensures r.calls == [BulkCall(AuthorIndex, authorDocs)]
            || r.calls == [BulkCall(AuthorIndex, authorDocs), BulkCall(BookIndex, bookDocs)]
    ensures r.result.Failure? ==> r.result.error.BulkIndexError?
    ensures r.result.Success? ==>
              && r.calls == [BulkCall(AuthorIndex, authorDocs), BulkCall(BookIndex, bookDocs)]
              && r.store == prepared[AuthorIndex := Upsert(prepared[AuthorIndex], authorDocs)]
                                    [BookIndex := Upsert(prepared[BookIndex], bookDocs)]
    ensures r.result.Failure? && r.result.error.index == AuthorIndex ==>
              r.calls == [BulkCall(AuthorIndex, authorDocs)] && r.store[BookIndex] == prepared[BookIndex]
    ensures r.result.Failure? && r.result.error.index == BookIndex ==>
              r.store[AuthorIndex] == Upsert(prepared[AuthorIndex], authorDocs)
    ensures Absorbed(prepared[AuthorIndex], r.store[AuthorIndex], authorDocs)
    ensures Absorbed(prepared[BookIndex], r.store[BookIndex], bookDocs)
    ensures authorDocs != [] && bookDocs != [] && AuthorIndex !in faults.rejectedBulks && BookIndex !in faults.rejectedBulks ==>
              r.result.Success?
    ensures authorDocs == [] ==>
              r.result == Failure(BulkIndexError(AuthorIndex, EmptyBodyReason)) && r.store == prepared
    ensures authorDocs != [] && bookDocs == [] && AuthorIndex !in faults.rejectedBulks ==>
              && r.result == Failure(BulkIndexError(BookIndex, EmptyBodyReason))
              && r.store == prepared[AuthorIndex := Upsert(prepared[AuthorIndex], authorDocs)]
  {
    var w1 := Bulk(prepared, AuthorIndex, authorDocs, faults);
    if !w1.valid then Run(Failure(BulkIndexError(AuthorIndex, w1.reason)), w1.store, [BulkCall(AuthorIndex, authorDocs)])
    else
      var w2 := Bulk(w1.store, BookIndex, bookDocs, faults);
      var calls := [BulkCall(AuthorIndex, authorDocs), BulkCall(BookIndex, bookDocs)];
      if w2.valid then Run(Success(Unit), w2.store, calls)
      else Run(Failure(BulkIndexError(BookIndex, w2.reason)), w2.store, calls)
  }

  /** The state a complete, fault-free write leaves: authors then books upserted
      over the indices as they were (or over empty ones). */
  function Refreshed(authorDocs: seq<Document>, bookDocs: seq<Document>, store: Store): Store {
    store[AuthorIndex := Upsert(Contents(store, AuthorIndex), authorDocs)]
         [BookIndex := Upsert(Contents(store, BookIndex), bookDocs)]
  }

  /** The re-check of both indices between the creation phase and the bulk writes. */
  const Rechecks: seq<Call> := [ExistsCall(BookIndex), ExistsCall(AuthorIndex)]

  predicate RecheckFails(faults: Faults) {
    Recheck(BookIndex) in faults.failedChecks || Recheck(AuthorIndex) in faults.failedChecks
  }

  /** Everything after the empty-catalog check: the creation phase, the
      re-check of both indices, then the bulk writes of the author documents
      and the book documents. */
  function RefreshIndices(authorDocs: seq<Document>, bookDocs: seq<Document>, store: Store, faults: Faults): (run: Run)
    ensures run.result.Failure? ==> run.result.error.IndexCreationError? || run.result.error.BulkIndexError?
  {
    var c := CreateIndices(store, faults);
    if c.result.Failure? then c
    else
      var prepared := c.store;
      if !(Exists(prepared, faults, Recheck(BookIndex)) && Exists(prepared, faults, Recheck(AuthorIndex))) then
        Run(Success(Unit), prepared, c.calls + Rechecks)
      else
        var w := WriteBoth(prepared, faults, authorDocs, bookDocs);
        Run(w.result, w.store, c.calls + Rechecks + w.calls)
  }

  /** The reindex procedure over a loaded catalog, a backend state and the
      faults the backend meets during the run. */
  function Reindex(books: seq<Book>, authors: seq<Author>, store: Store, faults: Faults): (run: Run)
    requires AllAuthorsLoaded(books) && AllBooksLoaded(authors)
    ensures run.result == Failure(EmptySource) <==> |books| == 0
  {
    if |books| == 0 then Run(Failure(EmptySource), store, [])
    else RefreshIndices(AuthorDocuments(authors), BookDocuments(books), store, faults)
  }

  /** How a refresh that got past creation went: the re-check, then the writes. */
  lemma RefreshPhases(authorDocs: seq<Document>, bookDocs: seq<Document>, store: Store, faults: Faults)
    requires CreateIndices(store, faults).result.Success?
    ensures var c := CreateIndices(store, faults);
            var run := RefreshIndices(authorDocs, bookDocs, store, faults);
            var w := WriteBoth(Prepared(store), faults, authorDocs, bookDocs);
            && c.store == Prepared(store)
            && (RecheckFails(faults) ==> run == Run(Success(Unit), Prepared(store), c.calls + Rechecks))
            && (!RecheckFails(faults) ==> run == Run(w.result, w.store, c.calls + Rechecks + w.calls))
  {
  }

  /** An empty catalog fails before any request and leaves the backend as it was. */
  lemma EmptyCatalogFailsFirst(books: seq<Book>, authors: seq<Author>, store: Store, faults: Faults)
    requires AllAuthorsLoaded(books) && AllBooksLoaded(authors)
    requires |books| == 0
    ensures var run := Reindex(books, authors, store, faults);
            run.result == Failure(EmptySource) && run.store == store && run.calls == []
  {
  }

  /** An index is created only right after its existence check reported it absent. */
  lemma CreatesOnlyWhenAbsent(authorDocs: seq<Document>, bookDocs: seq<Document>, store: Store, faults: Faults)
    ensures CreatesOnlyAbsent(RefreshIndices(authorDocs, bookDocs, store, faults).calls, store, faults)
  {
    var c := CreateIndices(store, faults);
    if c.result.Success? {
      RefreshPhases(authorDocs, bookDocs, store, faults);
      var w := WriteBoth(Prepared(store), faults, authorDocs, bookDocs);
      CreatesOnlyAbsentAppend(c.calls, Rechecks, store, faults);
      CreatesOnlyAbsentAppend(c.calls + Rechecks, w.calls, store, faults);
    }
  }

  /** A refused creation aborts the run with that index's creation error,
      before any bulk write and without writing any document. */
  lemma CreationFailureStopsRun(authorDocs: seq<Document>, bookDocs: seq<Document>, store: Store, faults: Faults)
    ensures var run := RefreshIndices(authorDocs, bookDocs, store, faults);
            run.result.Failure? && run.result.error.IndexCreationError? ==>
              && CreateCall(run.result.error.index) in run.calls
              && NoBulk(run.calls)
              && OnlyCreated(store, run.store)
  {
    if CreateIndices(store, faults).result.Success? {
      RefreshPhases(authorDocs, bookDocs, store, faults);
    }
  }

  /** When the re-check reports an index missing the run ends normally, with no
      bulk write and no document written; otherwise the author write is issued. */
  lemma RecheckFailureSkipsWrites(authorDocs: seq<Document>, bookDocs: seq<Document>, store: Store, faults: Faults)
    requires CreateIndices(store, faults).result.Success?
    ensures var run := RefreshIndices(authorDocs, bookDocs, store, faults);
            && (RecheckFails(faults) ==> run.result.Success? && NoBulk(run.calls) && OnlyCreated(store, run.store))
            && (!RecheckFails(faults) ==> BulkCall(AuthorIndex, authorDocs) in run.calls)
  {
    RefreshPhases(authorDocs, bookDocs, store, faults);
    var c := CreateIndices(store, faults);
    if RecheckFails(faults) {
      BulksAppend(c.calls, Rechecks);
      assert Bulks(Rechecks) == [];
    } else {
      var w := WriteBoth(Prepared(store), faults, authorDocs, bookDocs);
      assert (c.calls + Rechecks + w.calls)[|c.calls| + 2] == w.calls[0];
    }
  }

  /** The bulk writes of a run, in order: none, the authors alone, or the
      authors followed by the books. */
  lemma AuthorsWrittenBeforeBooks(authorDocs: seq<Document>, bookDocs: seq<Document>, store: Store, faults: Faults)
    ensures var bulks := Bulks(RefreshIndices(authorDocs, bookDocs, store, faults).calls);
            || bulks == []
            || bulks == [BulkCall(AuthorIndex, authorDocs)]
            || bulks == [BulkCall(AuthorIndex, authorDocs), BulkCall(BookIndex, bookDocs)]
  {
    var c := CreateIndices(store, faults);
    if c.result.Success? {
      RefreshPhases(authorDocs, bookDocs, store, faults);
      var w := WriteBoth(Prepared(store), faults, authorDocs, bookDocs);
      BulksAppend(c.calls, Rechecks);
      BulksAppend(c.calls + Rechecks, w.calls);
      assert Bulks(c.calls + Rechecks) == [];
      assert Bulks(w.calls) == w.calls;
    }
  }

  /** A failed author write ends the run: the book write is never issued and the
      book index keeps its contents. */
  lemma AuthorFailureStopsBooks(authorDocs: seq<Document>, bookDocs: seq<Document>, store: Store, faults: Faults)
    ensures var run := RefreshIndices(authorDocs, bookDocs, store, faults);
            run.result.Failure? && run.result.error.BulkIndexError? && run.result.error.index == AuthorIndex ==>
              && Bulks(run.calls) == [BulkCall(AuthorIndex, authorDocs)]
              && Contents(run.store, BookIndex) == Contents(store, BookIndex)
  {
    var c := CreateIndices(store, faults);
    if c.result.Success? && !RecheckFails(faults) {
      RefreshPhases(authorDocs, bookDocs, store, faults);
      var w := WriteBoth(Prepared(store), faults, authorDocs, bookDocs);
      if w.result.Failure? && w.result.error.index == AuthorIndex {
        BulksAppend(c.calls, Rechecks);
        BulksAppend(c.calls + Rechecks, w.calls);
        assert Bulks(c.calls + Rechecks) == [];
        assert Bulks(w.calls) == w.calls;
      }
    } else if c.result.Success? {
      RefreshPhases(authorDocs, bookDocs, store, faults);
    }
  }

  /** A failed book write keeps the author write in full: there is no rollback. */
  lemma BookFailureKeepsAuthors(authorDocs: seq<Document>, bookDocs: seq<Document>, store: Store, faults: Faults)
    ensures var run := RefreshIndices(authorDocs, bookDocs, store, faults);
            run.result.Failure? && run.result.error.BulkIndexError? && run.result.error.index == BookIndex ==>
              && AuthorIndex in run.store
              && run.store[AuthorIndex] == Upsert(Contents(store, AuthorIndex), authorDocs)
  {
    if CreateIndices(store, faults).result.Success? {
      RefreshPhases(authorDocs, bookDocs, store, faults);
    }
  }

  /** Whatever a run met, writing the full batches afterwards yields what one
      full write over the original contents would. */
  lemma RefreshIsAbsorbed(authorDocs: seq<Document>, bookDocs: seq<Document>, store: Store, faults: Faults)
    ensures var s1 := RefreshIndices(authorDocs, bookDocs, store, faults).store;
            && Absorbed(Contents(store, AuthorIndex), Contents(s1, AuthorIndex), authorDocs)
            && Absorbed(Contents(store, BookIndex), Contents(s1, BookIndex), bookDocs)
  {
    var s1 := RefreshIndices(authorDocs, bookDocs, store, faults).store;
    if CreateIndices(store, faults).result.Success? {
      RefreshPhases(authorDocs, bookDocs, store, faults);
    }
    if Contents(s1, AuthorIndex) == Contents(store, AuthorIndex) {
      assert Absorbed(Contents(store, AuthorIndex), Contents(s1, AuthorIndex), authorDocs);
    }
    if Contents(s1, BookIndex) == Contents(store, BookIndex) {
      assert Absorbed(Contents(store, BookIndex), Contents(s1, BookIndex), bookDocs);
    }
  }

  /** With no faults and two non-empty batches every step succeeds and both
      batches are written in full. */
  lemma FaultFreeRefreshCompletes(authorDocs: seq<Document>, bookDocs: seq<Document>, store: Store)
    requires authorDocs != [] && bookDocs != []
    ensures var run := RefreshIndices(authorDocs, bookDocs, store, NoFaults);
            run.result == Success(Unit) && run.store == Refreshed(authorDocs, bookDocs, store)
  {
    assert CreationUnhindered(NoFaults);
    assert !RecheckFails(NoFaults);
    RefreshPhases(authorDocs, bookDocs, store, NoFaults);
    var w := WriteBoth(Prepared(store), NoFaults, authorDocs, bookDocs);
    assert w.result.Success?;
    PreparedThenWritten(authorDocs, bookDocs, store);
  }

  lemma PreparedThenWritten(authorDocs: seq<Document>, bookDocs: seq<Document>, store: Store)
    ensures var p := Prepared(store);
            p[AuthorIndex := Upsert(p[AuthorIndex], authorDocs)][BookIndex := Upsert(p[BookIndex], bookDocs)]
            == Refreshed(authorDocs, bookDocs, store)
  {
    var p := Prepared(store);
    var full := p[AuthorIndex := Upsert(p[AuthorIndex], authorDocs)][BookIndex := Upsert(p[BookIndex], bookDocs)];
    var r := Refreshed(authorDocs, bookDocs, store);
    forall n: IndexName ensures n in full && n in r && full[n] == r[n] {
      // Needed: each index is updated by a different write, and the map
      // equality goes through only once the two cases are taken apart.
      if n == AuthorIndex {
      } else {
      }
    }
  }

  /** The result of a complete write depends only on what each index held. */
  lemma RefreshedDependsOnContents(authorDocs: seq<Document>, bookDocs: seq<Document>, s1: Store, s0: Store)
    requires Absorbed(Contents(s0, AuthorIndex), Contents(s1, AuthorIndex), authorDocs)
    requires Absorbed(Contents(s0, BookIndex), Contents(s1, BookIndex), bookDocs)
    ensures Refreshed(authorDocs, bookDocs, s1) == Refreshed(authorDocs, bookDocs, s0)
  {
    var r1 := Refreshed(authorDocs, bookDocs, s1);
    var r0 := Refreshed(authorDocs, bookDocs, s0);
    forall n: IndexName ensures n in r1 && n in r0 && r1[n] == r0[n] {
      // Needed: each index is updated by a different write, and the map
      // equality goes through only once the two cases are taken apart.
      if n == AuthorIndex {
      } else {
      }
    }
  }

  /** With no faults and no author documents the author write is refused for
      its empty body: the run fails there, and the indices are only created. */
  lemma FaultFreeRefreshWithoutAuthors(bookDocs: seq<Document>, store: Store)
    ensures var run := RefreshIndices([], bookDocs, store, NoFaults);
            && run.result == Failure(BulkIndexError(AuthorIndex, EmptyBodyReason))
            && run.store == Prepared(store)
            && Bulks(run.calls) == [BulkCall(AuthorIndex, [])]
  {
    assert CreationUnhindered(NoFaults);
    assert !RecheckFails(NoFaults);
    RefreshPhases([], bookDocs, store, NoFaults);
    AuthorFailureStopsBooks([], bookDocs, store, NoFaults);
  }

  /** With no faults and author documents but no book documents, the authors
      are written and the book write is refused for its empty body. */
  lemma FaultFreeRefreshWithoutBooks(authorDocs: seq<Document>, store: Store)
    requires authorDocs != []
    ensures var run := RefreshIndices(authorDocs, [], store, NoFaults);
            && run.result == Failure(BulkIndexError(BookIndex, EmptyBodyReason))
            && run.store == Refreshed(authorDocs, [], store)
  {
    assert CreationUnhindered(NoFaults);
    assert !RecheckFails(NoFaults);
    RefreshPhases(authorDocs, [], store, NoFaults);
    PreparedThenWritten(authorDocs, [], store);
  }

  /** Without author documents no run writes a document: it only creates
      indices. */
  lemma NothingWrittenWithoutAuthors(bookDocs: seq<Document>, store: Store, faults: Faults)
    ensures OnlyCreated(store, RefreshIndices([], bookDocs, store, faults).store)
  {
    if CreateIndices(store, faults).result.Success? {
      RefreshPhases([], bookDocs, store, faults);
    }
  }

  /** Stores that differ only by created, empty indices prepare alike. */
  lemma PreparedIgnoresCreated(s: Store, t: Store)
    requires OnlyCreated(s, t)
    ensures Prepared(t) == Prepared(s)
  {
    forall n: IndexName ensures n in Prepared(t) && n in Prepared(s) && Prepared(t)[n] == Prepared(s)[n] {
      // Needed: the two indices are told apart before the contents compare.
      if n == AuthorIndex {
      } else {
      }
    }
  }

  /** Retrying a refresh in full after any run ends where one fault-free
      refresh would. */
  lemma RefreshRetryConverges(authorDocs: seq<Document>, bookDocs: seq<Document>, store: Store, faults: Faults)
    ensures var first := RefreshIndices(authorDocs, bookDocs, store, faults);
            RefreshIndices(authorDocs, bookDocs, first.store, NoFaults).store
            == RefreshIndices(authorDocs, bookDocs, store, NoFaults).store
  {
    var first := RefreshIndices(authorDocs, bookDocs, store, faults);
    if authorDocs == [] {
      FaultFreeRefreshWithoutAuthors(bookDocs, store);
      FaultFreeRefreshWithoutAuthors(bookDocs, first.store);
      NothingWrittenWithoutAuthors(bookDocs, store, faults);
      PreparedIgnoresCreated(store, first.store);
    } else {
      if bookDocs == [] {
        FaultFreeRefreshWithoutBooks(authorDocs, store);
        FaultFreeRefreshWithoutBooks(authorDocs, first.store);
      } else {
        FaultFreeRefreshCompletes(authorDocs, bookDocs, store);
        FaultFreeRefreshCompletes(authorDocs, bookDocs, first.store);
      }
      RefreshIsAbsorbed(authorDocs, bookDocs, store, faults);
      RefreshedDependsOnContents(authorDocs, bookDocs, first.store, store);
    }
  }

  lemma CreatesOnlyAbsentAppend(xs: seq<Call>, ys: seq<Call>, store: Store, faults: Faults)
    requires CreatesOnlyAbsent(xs, store, faults) && NoCreate(ys)
    ensures CreatesOnlyAbsent(xs + ys, store, faults)
  {
    var zs := xs + ys;
    forall i | 0 <= i < |zs| && zs[i].CreateCall?
      ensures i > 0 && zs[i - 1] == ExistsCall(zs[i].index) && !Exists(store, faults, FirstCheck(zs[i].index))
    {
      assert i < |xs|;
      assert zs[i] == xs[i];
      assert zs[i - 1] == xs[i - 1];
    }
  }

  lemma {:induction false} BulksAppend(xs: seq<Call>, ys: seq<Call>)
    ensures Bulks(xs + ys) == Bulks(xs) + Bulks(ys)
  {
    if xs != [] {
      assert (xs + ys)[1..] == xs[1..] + ys;
      BulksAppend(xs[1..], ys);
    } else {
      assert xs + ys == ys;
    }
  }

  /** After a complete run every book has exactly its own document in the book
      index, under its id, when the catalog's ids are distinct. */
  lemma ReindexWritesEveryBook(books: seq<Book>, authors: seq<Author>, store: Store)
    requires AllAuthorsLoaded(books) && AllBooksLoaded(authors)
    requires |books| > 0 && |authors| > 0
    requires forall i, j :: 0 <= i < j < |books| ==> books[i].id != books[j].id
    ensures var run := Reindex(books, authors, store, NoFaults);
            && run.result.Success?
            && BookIndex in run.store
            && forall i :: 0 <= i < |books| ==>
                 books[i].id in run.store[BookIndex] && run.store[BookIndex][books[i].id] == BookDoc(ProjectBook(books[i]))
  {
    FaultFreeRefreshCompletes(AuthorDocuments(authors), BookDocuments(books), store);
    DistinctIdsAllWritten(Contents(store, BookIndex), BookDocuments(books));
  }

  /** With no authors the author write is refused for its empty body, so a
      fault-free run fails before any book is written and reports it with the
      wording for books. */
  lemma NoAuthorsNoBooksIndexed(books: seq<Book>, store: Store)
    requires AllAuthorsLoaded(books)
    requires |books| > 0
    ensures var run := Reindex(books, [], store, NoFaults);
            && run.result == Failure(BulkIndexError(AuthorIndex, EmptyBodyReason))
            && Contents(run.store, BookIndex) == Contents(store, BookIndex)
            && ReindexResponse(run) == (500, ReindexFailurePrefix + BooksBulkPrefix + EmptyBodyReason)
  {
    assert AuthorDocuments([]) == [];
    FaultFreeRefreshWithoutAuthors(BookDocuments(books), store);
    var run := Reindex(books, [], store, NoFaults);
    assert run.result == Failure(BulkIndexError(AuthorIndex, EmptyBodyReason));
    assert ErrorMessageAsWritten(BulkIndexError(AuthorIndex, EmptyBodyReason)) == BooksBulkPrefix + EmptyBodyReason;
    assert ReindexResponse(run) == (500, ReindexFailurePrefix + ErrorMessageAsWritten(BulkIndexError(AuthorIndex, EmptyBodyReason)));
    assert ReindexFailurePrefix + (BooksBulkPrefix + EmptyBodyReason) == ReindexFailurePrefix + BooksBulkPrefix + EmptyBodyReason;
  }

  /** Retrying in full after any run, however it failed, ends in the same state
      as a single complete run: partial writes are overwritten and nothing has
      to be rolled back. */
  lemma RetryConverges(books: seq<Book>, authors: seq<Author>, store: Store, faults: Faults)
    requires AllAuthorsLoaded(books) && AllBooksLoaded(authors)
    ensures var first := Reindex(books, authors, store, faults);
            Reindex(books, authors, first.store, NoFaults).store
            == Reindex(books, authors, store, NoFaults).store
  {
    if |books| > 0 {
      RefreshRetryConverges(AuthorDocuments(authors), BookDocuments(books), store, faults);
    }
  }

  /** Running reindex twice over unchanged data leaves the same index contents
      as running it once. */
  lemma ReindexIdempotent(books: seq<Book>, authors: seq<Author>, store: Store)
    requires AllAuthorsLoaded(books) && AllBooksLoaded(authors)
    ensures var once := Reindex(books, authors, store, NoFaults).store;
            Reindex(books, authors, once, NoFaults).store == once
  {
    RetryConverges(books, authors, store, NoFaults);
  }

  // ---------------------------------------------------------------------------
  // Error messages
  // ---------------------------------------------------------------------------

  const EmptySourceMessage: string := "no data to reindex"

  /** The message each failure is reported with, as the code writes it: both
      bulk failures use the wording for books. */
  function ErrorMessageAsWritten(e: ReindexError): (m: string)
    ensures e.EmptySource? ==> m == EmptySourceMessage
    ensures e.IndexCreationError? ==> |e.diagnostic| < |m| && m[|m| - |e.diagnostic|..] == e.diagnostic
    ensures e.BulkIndexError? ==> |BooksBulkPrefix| <= |m| && m[..|BooksBulkPrefix|] == BooksBulkPrefix
    ensures e.BulkIndexError? ==> m[|BooksBulkPrefix|..] == e.reason
  {
    match e
    case EmptySource => EmptySourceMessage
    case IndexCreationError(BookIndex, d) => BookCreationPrefix + d
    case IndexCreationError(AuthorIndex, d) => AuthorCreationPrefix + d
    case BulkIndexError(_, reason) => BooksBulkPrefix + reason
  }

  const BookCreationPrefix: string := "Failed to create book index: "
  const AuthorCreationPrefix: string := "Failed to create author index: "
  const BooksBulkPrefix: string := "Failed to index books: "

  /** The corrected wording of an author-bulk failure. */
  const AuthorsBulkPrefix: string := "Failed to index authors: "

  /** The written messages cannot tell a failed author write from a failed book
      write with the same reason. */
  lemma AsWrittenBulkMessagesCollide()
    ensures ErrorMessageAsWritten(BulkIndexError(AuthorIndex, "x"))
            == ErrorMessageAsWritten(BulkIndexError(BookIndex, "x"))
    ensures BulkIndexError(AuthorIndex, "x") != BulkIndexError(BookIndex, "x")
  {
  }

  /** The message each failure is reported with, naming the index a bulk write
      failed on. */
  function ErrorMessage(e: ReindexError): (m: string)
    ensures !(e.BulkIndexError? && e.index == AuthorIndex) ==> m == ErrorMessageAsWritten(e)
    ensures e.BulkIndexError? ==> |e.reason| < |m| && m[|m| - |e.reason|..] == e.reason
    ensures e.BulkIndexError? && e.index == AuthorIndex ==> m != ErrorMessageAsWritten(e)
  {
    match e
    case EmptySource => EmptySourceMessage
    case IndexCreationError(BookIndex, d) => BookCreationPrefix + d
    case IndexCreationError(AuthorIndex, d) => AuthorCreationPrefix + d
    case BulkIndexError(BookIndex, reason) => BooksBulkPrefix + reason
    case BulkIndexError(AuthorIndex, reason) => AuthorsBulkPrefix + reason
  }

  /** Distinct failures are reported with distinct messages. */
  lemma ErrorMessageIdentifiesError(e1: ReindexError, e2: ReindexError)
    requires ErrorMessage(e1) == ErrorMessage(e2)
    ensures e1 == e2
  {
    var m := ErrorMessage(e1);
    // Every message but the empty-catalog one starts with "Failed to ", ten
    // characters; the next one is 'c' for a creation and 'i' for a bulk write.
    match e1 {
      case EmptySource =>
        assert m[0] == 'n';
      case IndexCreationError(n1, d1) =>
        assert m[10] == 'c';
        if e2.IndexCreationError? {
          // The creation prefixes first differ after "Failed to create " (17 characters).
          PrefixedByIndex(n1, e2.index, BookCreationPrefix, AuthorCreationPrefix, 17, d1, e2.diagnostic);
        }
      case BulkIndexError(n1, r1) =>
        assert m[10] == 'i';
        if e2.BulkIndexError? {
          // The bulk prefixes first differ after "Failed to index " (16 characters).
          PrefixedByIndex(n1, e2.index, BooksBulkPrefix, AuthorsBulkPrefix, 16, r1, e2.reason);
        }
    }
  }

  /** Two messages built from a per-index prefix, where the prefixes differ at
      position `at`, are equal only for the same index and the same rest. */
  lemma PrefixedByIndex(n1: IndexName, n2: IndexName, bookPrefix: string, authorPrefix: string, at: nat, x1: string, x2: string)
    requires at < |bookPrefix| && at < |authorPrefix| && bookPrefix[at] != authorPrefix[at]
    requires (if n1 == BookIndex then bookPrefix else authorPrefix) + x1
             == (if n2 == BookIndex then bookPrefix else authorPrefix) + x2
    ensures n1 == n2 && x1 == x2
  {
    var p1 := if n1 == BookIndex then bookPrefix else authorPrefix;
    var p2 := if n2 == BookIndex then bookPrefix else authorPrefix;
    assert (p1 + x1)[at] == p1[at];
    assert (p2 + x2)[at] == p2[at];
    assert x1 == (p1 + x1)[|p1|..];
    assert x2 == (p2 + x2)[|p2|..];
  }

  /** The HTTP answer to a reindex request as the code gives it: 200 on
      success, 500 with the failure's written message otherwise. */
  function ReindexResponse(run: Run): (r: (int, string))
    ensures r.0 == 200 <==> run.result.Success?
    ensures r.0 != 200 ==> r.0 == 500
    ensures run.result.Failure? ==>
              |ReindexFailurePrefix| <= |r.1| && r.1[|ReindexFailurePrefix|..] == ErrorMessageAsWritten(run.result.error)
  {
    match run.result
    case Success(_) => (200, "Reindexing completed successfully.")
    case Failure(e) => (500, ReindexFailurePrefix + ErrorMessageAsWritten(e))
  }

  const ReindexFailurePrefix: string := "An error occurred during reindexing: "

  /** The same answer with the corrected messages. */
  function ReindexResponseCorrected(run: Run): (r: (int, string))
    ensures r.0 == 200 <==> run.result.Success?
    ensures r.0 != 200 ==> r.0 == 500
    ensures run.result.Failure? ==>
              |ReindexFailurePrefix| <= |r.1| && r.1[|ReindexFailurePrefix|..] == ErrorMessage(run.result.error)
  {
    match run.result
    case Success(_) => (200, "Reindexing completed successfully.")
    case Failure(e) => (500, ReindexFailurePrefix + ErrorMessage(e))
  }

  /** With the corrected messages, two failed runs answered alike failed in
      the same way; the written answers cannot promise this. */
  lemma CorrectedResponseIdentifiesError(run1: Run, run2: Run)
    requires run1.result.Failure? && run2.result.Failure?
    requires ReindexResponseCorrected(run1) == ReindexResponseCorrected(run2)
    ensures run1.result.error == run2.result.error
  {
    var m := ReindexResponseCorrected(run1).1;
    assert m[|ReindexFailurePrefix|..] == ErrorMessage(run1.result.error);
    assert m[|ReindexFailurePrefix|..] == ErrorMessage(run2.result.error);
    ErrorMessageIdentifiesError(run1.result.error, run2.result.error);
  }
}

=== FILE: outcomes.dfy ===
/** Optional values (a C# reference that may be null) and results of fallible
    operations (an operation that throws or answers with an error status). */
module Outcomes {

  /** A value that may be absent; `None` stands for a C# `null`. */
  datatype Option<+T> = None | Some(value: T) {

    /** The value if present, otherwise `default` (the C# `x ?? default`). */
    function GetOr(default: T): T {
      match this
      case Some(v) => v
      case None => default
    }
  }

  /** The outcome of an operation that either completes with a value or fails with an error. */
  datatype Result<+T, +E> = Success(value: T) | Failure(error: E)

  /** The unit value, returned by operations that complete with nothing to report. */
  datatype Unit = Unit
}

=== FILE: search_models.dfy ===
/** The denormalised documents written to the search backend: a flat copy of a
    book or an author plus id-and-label references to the other side. */
module SearchModels {
  import opened Outcomes
  import opened Domain

  datatype AuthorNestedModel = AuthorNestedModel(id: Guid, name: string)

  datatype BookNestedModel = BookNestedModel(id: Guid, title: string)

  datatype BookSearchModel = BookSearchModel(
    id: Guid,
    title: string,
    description: Option<string>,
    authors: seq<AuthorNestedModel>,
    tags: seq<string>)

  datatype AuthorSearchModel = AuthorSearchModel(
    id: Guid,
    name: string,
    books: seq<BookNestedModel>,
    tags: seq<string>)
}

=== FILE: text.dfy ===
/** Text operations the search path relies on: lower-casing a search term and
    matching a wildcard pattern against an indexed term. */
module Text {

  /** Lower-case mapping of one character: ASCII letters and the basic Cyrillic
      block (U+0400..U+042F) map to their small forms; every other character is
      left as it is. */
  function LowerChar(c: char): (r: char)
    ensures IsUpper(c) ==> r != c && !IsUpper(r)
    ensures ('A' <= c <= 'Z' || 'А' <= c <= 'Я') ==> r as int == c as int + 0x20
    ensures 'Ѐ' <= c <= 'Џ' ==> r as int == c as int + 0x50
    ensures !IsUpper(c) ==> r == c
  {
    if 'A' <= c <= 'Z' then (c as int + 0x20) as char
    else if 'А' <= c <= 'Я' then (c as int + 0x20) as char
    else if 'Ѐ' <= c <= 'Џ' then (c as int + 0x50) as char
    else c
  }

  predicate IsUpper(c: char) {
    'A' <= c <= 'Z' || 'Ѐ' <= c <= 'Я'
  }

  /** The term lower-cased character by character (`string.ToLower`). */
  function Lower(s: string): (r: string)
    ensures |r| == |s|
    ensures forall i :: 0 <= i < |s| ==> !IsUpper(r[i])
    ensures forall i :: 0 <= i < |s| && ('A' <= s[i] <= 'Z' || 'А' <= s[i] <= 'Я') ==> r[i] as int == s[i] as int + 0x20
    ensures forall i :: 0 <= i < |s| && 'Ѐ' <= s[i] <= 'Џ' ==> r[i] as int == s[i] as int + 0x50
    ensures forall i :: 0 <= i < |s| && !IsUpper(s[i]) ==> r[i] == s[i]
  {
    seq(|s|, i requires 0 <= i < |s| => LowerChar(s[i]))
  }

  /** The characters a wildcard pattern treats specially: the two wildcards
      and the escape character. */
  predicate IsWildcard(c: char) {
    c == '*' || c == '?' || c == '\\'
  }

  predicate NoWildcards(s: string) {
    forall i :: 0 <= i < |s| ==> !IsWildcard(s[i])
  }

  /** Lower-casing never introduces or removes a wildcard character. */
  lemma LowerKeepsWildcards(s: string)
    ensures NoWildcards(Lower(s)) <==> NoWildcards(s)
  {
    var r := Lower(s);
    forall i | 0 <= i < |s|
      ensures IsWildcard(r[i]) <==> IsWildcard(s[i])
    {
      assert r[i] == LowerChar(s[i]);
    }
  }

  /** `p` occurs in `s` starting at position `i`. */
  predicate OccursAt(p: string, s: string, i: int) {
    0 <= i && i + |p| <= |s| && s[i..i + |p|] == p
  }

  /** `p` occurs in `s` as a contiguous run of characters. */
  predicate IsSubstring(p: string, s: string) {
    exists i :: 0 <= i <= |s| && OccursAt(p, s, i)
  }

  /** Wildcard matching of a whole term: `*` matches any run of characters
      (possibly empty), `?` matches exactly one character, `\` makes the next
      character match only itself (a trailing `\` is an ordinary character),
      and every other character matches itself. */
  predicate GlobMatch(pat: string, s: string)
    decreases |pat| + |s|
  {
    if pat == [] then s == []
    else if pat[0] == '*' then GlobMatch(pat[1..], s) || (s != [] && GlobMatch(pat, s[1..]))
    else if s == [] then false
    else if pat[0] == '\\' && |pat| >= 2 then pat[1] == s[0] && GlobMatch(pat[2..], s[1..])
    else (pat[0] == '?' || pat[0] == s[0]) && GlobMatch(pat[1..], s[1..])
  }

  /** A lone `*` matches every term. */
  lemma {:induction false} StarMatchesAll(s: string)
    ensures GlobMatch("*", s)
  {
    if s != [] {
      StarMatchesAll(s[1..]);
    }
  }

  /** A pattern that starts with wildcard-free text matches exactly the terms
      that start with that text and whose remainder matches the rest. */
  lemma {:induction false} LiteralPrefix(p: string, rest: string, s: string)
    requires NoWildcards(p)
    ensures GlobMatch(p + rest, s) <==> |p| <= |s| && s[..|p|] == p && GlobMatch(rest, s[|p|..])
    decreases |p|
  {
    if p == [] {
      assert p + rest == rest;
      assert s[0..] == s;
    } else {
      var pat := p + rest;
      assert pat[0] == p[0] && !IsWildcard(p[0]);
      assert pat[1..] == p[1..] + rest;
      if s != [] {
        LiteralPrefix(p[1..], rest, s[1..]);
        if |p| <= |s| {
          assert s[1..][|p| - 1..] == s[|p|..];
          assert s[..|p|] == [s[0]] + s[1..][..|p| - 1];
        }
      }
    }
  }

  /** A pattern that starts with `*` matches a term exactly when the rest of the
      pattern matches some suffix of it. */
  lemma {:induction false} LeadingStar(q: string, s: string)
    ensures GlobMatch("*" + q, s) <==> exists i :: 0 <= i <= |s| && GlobMatch(q, s[i..])
  {
    var pat := "*" + q;
    assert pat[1..] == q;
    if s == [] {
      assert s[0..] == s;
    } else {
      LeadingStar(q, s[1..]);
      if GlobMatch(pat, s) {
        if GlobMatch(q, s) {
          assert s[0..] == s;
        } else {
          var j :| 0 <= j <= |s[1..]| && GlobMatch(q, s[1..][j..]);
          assert s[1..][j..] == s[j + 1..];
        }
      }
      if exists i :: 0 <= i <= |s| && GlobMatch(q, s[i..]) {
        var i :| 0 <= i <= |s| && GlobMatch(q, s[i..]);
        if i == 0 {
          assert s[0..] == s;
        } else {
          assert s[1..][i - 1..] == s[i..];
        }
      }
    }
  }

  /** Wrapping wildcard-free text in stars gives a substring test. */
  lemma SubstringPattern(p: string, s: string)
    requires NoWildcards(p)
    ensures GlobMatch("*" + p + "*", s) <==> IsSubstring(p, s)
  {
    assert "*" + p + "*" == "*" + (p + "*");
    LeadingStar(p + "*", s);
    if GlobMatch("*" + p + "*", s) {
      var i :| 0 <= i <= |s| && GlobMatch(p + "*", s[i..]);
      LiteralPrefix(p, "*", s[i..]);
      assert s[i..][..|p|] == s[i..i + |p|];
      assert OccursAt(p, s, i);
    }
    if IsSubstring(p, s) {
      var i :| 0 <= i <= |s| && OccursAt(p, s, i);
      LiteralPrefix(p, "*", s[i..]);
      StarMatchesAll(s[i..][|p|..]);
      assert s[i..][..|p|] == s[i..i + |p|];
    }
  }

  /** The pattern built from an empty term, `**`, matches every term. */
  lemma DoubleStarMatchesAll(s: string)
    ensures GlobMatch("**", s)
  {
    assert "**" == "*" + "*";
    StarMatchesAll(s);
    LeadingStar("*", s);
    assert s[0..] == s;
  }
}
